=== FILE: README.md ===
# Battlesnake bot: grid, snake, team and starter-move model

A Dafny model of the game logic of a Python Battlesnake bot. The bot plays
a team of two snakes. Each turn it loads the board snapshot that the game
server sends and picks one move per snake.

The model covers four parts of the bot:

- **Grid (`board.py`).** Cells with food, hazard and occupant, and their
  predicates. Bounds checks and safety queries. The direction from one cell
  to another. Grid construction and clearing. Taking a snake off the grid.
  The nearest-live-snake query. Reloading the whole grid from a snapshot
  (`Board.update_state`).
- **Per-snake state (`snake.py`).** Copying a snapshot entry into a snake,
  killing it, the Manhattan distance from its head, its one-step safe moves
  and its nearest food.
- **Team (`snakeduo.py`).** The two-snake state machine:
  - the initialization guard;
  - the strictly-later-turn guard on snapshots;
  - once-per-turn move calculation with its fixed fallback order;
  - per-snake move storage;
  - the end-of-game handshake.
- **Starter move (`main.py`).** The stand-alone `move` function, which
  filters out the neck, the walls and the body, then prefers the first food
  item.

Python values are written out explicitly:

- `None` is `Py.Option`, and `math.inf` is `Py.Extended`.
- A raised exception is the `Err` branch of `Py.Result`.
- Python's negative list indices are `Py.PyIndex`.
- A Python `Snake` object is identified by its client id. A cell's occupant
  is therefore the id of the snake lying on it, and a roster holds each id
  at most once, as the id-keyed `snake_map` does.
- Team members are identified by the id their requests are routed by.

Files and modules:

| file | module | models |
|---|---|---|
| `py.dfy` | `Py` | Python's `None`, `math.inf`, exceptions, negative indexing |
| `geometry.dfy` | `Geometry` | points, the four directions and their offsets, Manhattan distance |
| `snake.dfy` | `Snakes` | `Snake.update_state`, `kill`, `get_distance_to` |
| `cell.dfy` | `Cells` | `Cell` |
| `board.dfy` | `Boards` | `GeneralBoard` |
| `board_load.dfy` | `BoardLoad` | `Board.set_snake_position`, `Board.update_state` |
| `snake_moves.dfy` | `SnakeMoves` | `get_safe_moves`, `get_closest_food_pos` |
| `team.dfy` | `Team` | `SnakeDuo` |
| `starter.dfy` | `Starter` | `main.move` |

## Model

| member | source | states |
|---|---|---|
| Py.PyIndex | board.py:348 | a Python subscript `i` into a list of length `n` succeeds exactly when `-n <= i < n`; it then picks an element congruent to `i` modulo `n`, and `i` itself when `i` is non-negative |
| Geometry.Rank | snake.py:94 | each direction's position in the enumeration order up, down, left, right |
| Geometry.Step | snake.py:94-95 | a one-direction move lands on a different square at Manhattan distance exactly 1 |
| Geometry.Manhattan | snake.py:44 | the Manhattan distance is zero exactly when the two points coincide |
| Geometry.StepInjective | snake.py:94-95 | distinct directions lead to distinct neighbouring squares |
| Snakes.NewSnake | snake.py:22-26 | a new snake has no client id, is an enemy, is alive, and has no head or body |
| Snakes.UpdateState | snake.py:29-34 | health, length, body, head and colour are taken from the snapshot entry; the id and the enemy and dead flags are untouched |
| Snakes.Kill | snake.py:36-41 | a killed snake is dead with length and health 0 and no head or body; id, side and colour are kept |
| Snakes.DistanceTo | snake.py:43-44 | the distance from the head is a natural number, zero exactly when the point is the head |
| Snakes.UpdateStateLastWins | snake.py:29-34 | of two successive snapshot entries only the later one matters |
| Snakes.KilledStaysDead | snake.py:29-41 | killing is idempotent, and a later snapshot entry does not revive a killed snake |
| Cells.NewCell | board.py:9-17 | a new cell sits at its coordinates, is empty, is not a head, and has no colour or nearest-snake data |
| Cells.IsEmpty | board.py:36-37 | a square is empty exactly when it is safe and holds no food |
| Cells.IsFood | board.py:39-40 | a food square is never empty |
| Cells.IsSafe | board.py:42-43 | a safe square is never occupied |
| Cells.OccupiedNeitherSafeNorEmpty | board.py:36-46 | an occupied square is neither safe nor empty |
| Cells.ClearSnakeInfo | board.py:48-52 | position, food, hazard and colour are kept; occupant, head flag and nearest-snake data are dropped; the result is safe exactly when there is no hazard |
| Cells.Clear | board.py:54-60 | a cleared cell is empty, safe and foodless, and equals a freshly created cell at the same position |
| Cells.Copy | board.py:62-70 | the copy agrees with the original in every field |
| Cells.SetFlag | board.py:19-23 | setting food or hazard raises that flag, keeps the other flag as it was, and leaves position, occupant, head flag, colour and nearest-snake data unchanged |
| Cells.SetSnake | board.py:25-27 | the occupant and head flag are set, and every other field is kept |
| Cells.CopyClearSnakeInfo | board.py:48-70 | a copy with its snake data cleared keeps x, y, food, hazard and colour, and has no occupant, head flag or nearest-snake data |
| Boards.IsValidCell | board.py:113-114 | a position on the board names a stored square of a well-formed grid, and that square sits at the position |
| Boards.GetCell | board.py:108-114 | `None` exactly off the board; otherwise the cell stored at `(x, y)`, whose coordinates are `(x, y)` |
| Boards.IsSafe | board.py:91-94 | false off the board; on it, safe exactly when the square has no occupant and no hazard |
| Boards.SafetyIgnoresFood | board.py:91-94 | putting food on any square changes the safety of no square |
| Boards.DirectionBetween | board.py:96-106 | "right" iff x1 < x2, "left" iff x1 > x2, "up" iff y1 < y2, "down" iff y1 > y2; at most two entries with the horizontal one first; empty exactly when the cells coincide |
| Boards.DirectionsApproach | board.py:96-106 | a direction is returned exactly when one step in it brings the first cell one square closer to the second |
| Boards.FlattenIndex | board.py:116-123 | in the x-major list of all cells, square `(x, y)` is entry `x * height + y` |
| Boards.FlattenLength | board.py:116-123 | the x-major list of all cells has width times height entries |
| Boards.CreateCells | board.py:116-123 | the grid has `width` columns of `height` fresh cells, with `cells[x][y]` at `(x, y)`; `all_cells` is their x-major listing of length width times height |
| Boards.NewBoard | board.py:77-83 | a new board is well formed, with the requested size and roster, and every square is a fresh square at its own position |
| Boards.ClearCells | board.py:86-89 | every square becomes a fresh cell at its own position; size and roster are unchanged |
| Boards.ClearSnake | board.py:143-146 | afterwards no square holds the snake; each square it held becomes that square with its snake information cleared (no occupant, no head flag, no nearest-snake data); squares it did not hold are unchanged; food, hazard and colour of every square are kept |
| Boards.PlaceDeadSnake | board.py:133-136 | placing a dead snake keeps the board's size and roster, leaves the snake on no square, clears the snake information of each square it held, and leaves every square it did not hold unchanged |
| Boards.MinLiveDistance | board.py:170-183 | the least distance from a live snake's head, capped at 999999999: no live snake is nearer, and some live snake attains it unless it is the cap |
| Boards.LiveAt | board.py:170-183 | every listed snake is a live rostered snake at exactly that distance |
| Boards.NoneCloserThanMin | board.py:170-183 | no live snake lies strictly nearer than the minimum |
| Boards.GetClosestSnake | board.py:170-183 | the single pass returns the minimum live distance and exactly the live snakes at that distance, in roster order, ignoring dead snakes |
| Boards.Visit | board.py:172-181 | visiting one snake never increases the best distance so far |
| Boards.VisitExtends | board.py:172-181 | visiting the next roster snake turns the nearest live snakes and distance of a roster prefix into those of the prefix one longer |
| Boards.CalculateClosestSnake | board.py:186-190 | every square is annotated with the nearest live snakes and their distance for that square; everything else is kept |
| Boards.SnakeIndex | board.py:192-196 | the position of the first rostered snake with the id, `None` exactly when no snake has it |
| Boards.GetSnake | board.py:192-196 | the first rostered snake with the id, `None` exactly when there is none |
| BoardLoad.Resolve | board.py:347-348 | the square a snapshot point reads with Python indexing, present exactly when both coordinates are valid Python subscripts; points on the grid read themselves |
| BoardLoad.MarkFlags | board.py:347-351 | raises exactly when some point is not a valid subscript, naming such a point; otherwise sets the flag on exactly the squares some point reads and leaves all others alone |
| BoardLoad.MarkBody | board.py:335-342 | writes the snake onto exactly the squares its body reads; a square is the head when the last body entry on it equals the head; raises as `MarkFlags` does |
| BoardLoad.LastInfoFor | board.py:353-358 | the last snapshot entry carrying an id, `None` exactly when the id is not listed |
| BoardLoad.PlaceSnakes | board.py:353-358 | raises exactly when some entry names an unrostered id or has a body point that is not a valid Python subscript of the grid (x outside -width..width-1 or y outside -height..height-1); otherwise each square holds the snake of the last entry whose body reads it, flagged as head exactly when that entry's last part there is its head, and a square no entry reads is unchanged; each rostered snake carries its last entry, and roster ids are unchanged and unique |
| BoardLoad.Ids | board.py:353-356 | an id is collected exactly when some snapshot entry carries it |
| BoardLoad.LoadState | board.py:345-364 | raises exactly when the snapshot is not loadable; otherwise food is set exactly on the snapshot's food squares and hazard exactly on its hazard squares; each square's occupant and head flag are those of the last entry whose body reads it (none when no entry reads it); every rostered snake is refreshed if listed and killed if not; every square carries its nearest-live-snake data; size and roster ids are kept |
| BoardLoad.LoadStateRoster | board.py:353-362 | after refreshing and killing, each rostered snake is its refreshed self if listed and killed otherwise; ids stay unique and every live snake has a head |
| BoardLoad.LoadStateCells | board.py:345-364 | the per-square result of the five loading steps: flags from the snapshot, occupant and head flag from the last entry reading the square, no colour, nearest-snake data |
| BoardLoad.LastEntry | board.py:355-356 | the last snapshot entry whose body reads a square, or none exactly when no entry's body reads it; no later entry reads that square |
| BoardLoad.PlacedStep | board.py:333-341 | writing one more entry's body onto a square replaces the occupant and head flag left by earlier entries exactly when the new body reads that square |
| BoardLoad.FlagGrid | board.py:345-351 | after clearing and flagging, a square has food exactly where the snapshot lists food and hazard exactly where it lists hazards, and no snake, head flag or colour; clearing and flagging raise nothing when every food and hazard point is a valid Python subscript of the grid (negative coordinates count from the far edge) |
| SnakeMoves.KeepSafe | snake.py:93-98 | keeps, in order, exactly the candidate directions whose next square is safe |
| SnakeMoves.SafeMoves | snake.py:89-98 | a dead snake has no safe moves; otherwise a direction is listed exactly when its next square is safe, in the order up, down, left, right, at most four |
| SnakeMoves.SafeMovesDistinct | snake.py:93-98 | the safe moves never repeat a direction |
| SnakeMoves.ClosestFoodPos | snake.py:125-135 | raises exactly when the snake has no head and the grid holds food; otherwise no cell and an infinite distance exactly when the grid has no food, and else a food cell at the least Manhattan distance from the head, strictly nearer than every food cell before it in the x-major scan, with its distance |
| SnakeMoves.ScanKeeps | snake.py:130-134 | a square that is not food, or food no nearer than the current choice, leaves the scan's choice valid for the longer prefix |
| SnakeMoves.ScanTakes | snake.py:130-134 | food strictly nearer than the current choice, or the first food at all, is the first nearest food square of the longer prefix |
| SnakeMoves.ScanColumn | snake.py:128-134 | scanning one column keeps the scan state: no choice exactly when no food has been seen, otherwise the first nearest food square; a choice once made is never dropped |
| Team.NewMember | snake.py:48-54 | a new controllable snake is not an enemy, is alive and has no client id yet |
| Team.NewDuo | snakeduo.py:9-30 | a new team holds the two given members in the given order, has seen no turn, calculated none, has no board, history or stored move, and neither member has ended |
| Team.InitializeTeam | snakeduo.py:33-52 | a no-op unless both members have a client id; otherwise raises exactly when the snapshot cannot be loaded into a fresh board, and else records the turn, the board that loading the snapshot into a fresh board of the snapshot's size produces, and that board as one new history entry; members, moves and end flags are kept |
| Team.FirstInfoFor | snakeduo.py:64-68 | the first snapshot entry with the id, `None` exactly when there is none |
| Team.RefreshMember | snakeduo.py:64-68 | a member listed in the snapshot takes the fields of the first entry carrying its client id; an unlisted member, or one without a client id, is unchanged; ids and dead flag are always kept |
| Team.UpdateState | snakeduo.py:56-70 | a snapshot is taken only when the team is initialized and its turn is strictly later; then it raises exactly when there is no board or the snapshot cannot be loaded; otherwise the turn becomes the snapshot's and never decreases, the board is the old board with the snapshot loaded into it, each member is refreshed from its first snapshot entry, and exactly that board is added to the history |
| Team.InitializationKept | snakeduo.py:33-34 | both members know their client id after loading exactly when they did before, and a team of freshly made members does not |
| Team.AcceptsAfterSnapshot | snakeduo.py:57-58 | after a snapshot is taken, a later snapshot is accepted exactly when its turn is strictly later than the one taken |
| Team.RedeliveryIgnored | snakeduo.py:56-57 | delivering a snapshot a second time changes nothing |
| Team.StaleSnapshotIgnored | snakeduo.py:56-60 | after a snapshot is taken, one for the same or an earlier turn is ignored |
| Team.FirstIn | snakeduo.py:110-113 | the first food direction that is safe, `None` exactly when none is |
| Team.ChooseMove | snakeduo.py:97-118 | "up" when no move is safe; otherwise a safe move, which is the first safe food direction when there is one and the first safe move when there is none |
| Team.MemberMove | snakeduo.py:94-118 | succeeds exactly when the member is dead or has a head and the board exists; raises for a missing head before a missing board; a dead member moves "up" |
| Team.CalculateMove | snakeduo.py:85-118 | once per turn: marks the turn as calculated and picks both moves; raises exactly when some member cannot move, leaving the second move unset; a second call in the same turn changes nothing |
| Team.ChosenMoveIsSafe | snakeduo.py:97-118 | each live member's move is one of its safe moves, or "up" when it has none |
| Team.CalculateMoveIdempotent | snakeduo.py:85-88 | a second call in the same turn returns the state unchanged and raises nothing, whatever food directions it receives |
| Team.SetSnakeMove | snakeduo.py:72-76 | stores the move in the slot of the member whose route it names (the first member when both match) and leaves the other slot alone; changes nothing for a snake outside the team |
| Team.GetMove | snakeduo.py:121-127 | a member's stored move, `None` for a snake outside the team |
| Team.SetThenGetMove | snakeduo.py:72-82 | a stored move is read back, and the other member's move is untouched |
| Team.EveryMemberGetsAMove | snakeduo.py:91-118 | after a calculation that raised nothing, both members have a move |
| Team.FirstMoveRaises | snakeduo.py:36-62 | right after initialization, the move request of the same turn is ignored by `update_state`, and `calculate_move` raises because a live member has no head |
| Team.InitializeTeamRefreshed | snakeduo.py:36-52 | initialization that also refreshes the members succeeds exactly when the original does, and leaves the team ready to move once both members appear in the snapshot |
| Team.RefreshedFirstMoveSucceeds | snakeduo.py:36-52 | with members refreshed at initialization, the first move raises nothing and gives both members a move |
| Team.EndTeam | snakeduo.py:145-153 | a member's end flag is set and never cleared; the end-of-game hook fires exactly when both flags are set |
| Team.EndHandshake | snakeduo.py:145-153 | the hook does not fire when the first member ends, and fires when the second one does, in either order |
| Starter.Forbid | main.py:32 | marks one direction unsafe and leaves the others |
| Starter.NeckFilter | main.py:38-48 | never allows anything new; with the neck adjacent to the head, rules out exactly the direction leading onto it |
| Starter.WallFilter | main.py:54-62 | never allows anything new; with independent tests, or with the `elif` tests on a board at least 2 by 2, a direction survives exactly when it stays on the board |
| Starter.ElifWallsExclude | main.py:54-62 | the `elif` check rules out left at x = 0 and down at y = 0, rules out right and up at the far edge only off the zero line, and leaves right and up alone on the zero line |
| Starter.SegmentFilter | main.py:67-75 | rules out exactly the direction whose next square is that body segment |
| Starter.BodyFilter | main.py:66-75 | a direction survives exactly when its next square holds no body segment |
| Starter.Screen | main.py:32-75 | no allowed direction leads onto the body, the neck included; with the neck adjacent, a direction is allowed exactly when it avoids the body and passes the wall check |
| Starter.SafeList | main.py:83-86 | lists exactly the allowed directions, in the order up, down, left, right |
| Starter.ApproachesToward | main.py:99-106 | a step brings the head nearer the food exactly when it moves towards the food along its own axis |
| Starter.FoodPreference | main.py:99-106 | the random pick when no allowed direction heads towards the food; otherwise an allowed direction that does, and among those the first in the order right, left, up, down |
| Starter.StarterMove | main.py:30-109 | raises for a body shorter than two; "down" when nothing is allowed; otherwise raises exactly when there is no food, and any move returned is one of the allowed ones |
| Starter.StarterMoveChoice | main.py:83-106 | when some move is allowed and food exists, the move is allowed and avoids the body; it is the random pick when no allowed move approaches the first food item, and otherwise the first allowed move approaching it in the order right, left, up, down |
| Starter.ElifWallsLeaveNarrowBoard | main.py:54-62 | on a board one square wide, the move as written can be "right", which leaves the board |
| Starter.ElifWallsAgreeOnWideBoards | main.py:54-62 | on boards at least 2 by 2 the `elif` and the independent wall checks give the same move |
| Starter.WallChecksAgree | main.py:54-62 | on boards at least 2 by 2 the two wall checks filter every safety record identically |
| Starter.BoundedMoveStaysOnBoard | main.py:54-62 | with independent wall tests, a move picked from a non-empty allowed set stays on the board |

## Left out

- Rendering and replay saving are not modelled, because they are image and
  file-system I/O. This covers `convert_to_image`, `_repr_png_`,
  `save_to_img`, `create_gif` and `SnakeDuo.on_end`. `Team.EndTeam` only
  reports whether the hook would run.
- The `json.dump` in `SnakeDuo.update_state` is not modelled, because it
  is file I/O.
- The Flask routing in `networkmanager.py`, and the network wrappers
  `SnakeNetworkManager` and `ControllableSnake.info/start/end/move`, are not
  modelled, because they are transport plumbing. `server.py` is a scratch
  script and is not part of this model.
- `GeneralBoard.copy`, `move_snake`, `get_possible_subboards`,
  `Board.create_snakes` and `Board.copy` are not modelled.
  - `GeneralBoard.copy` calls `snake.copy_to_board` (board.py:211), and
    `get_possible_subboards` goes through it.
  - `move_snake` calls `snake.move(direction)` (board.py:199).
  - `Board.create_snakes` calls `place_on_board` (board.py:328).
  - The Snake classes define none of these three; `ControllableSnake.move`
    takes a game state, not a direction.
  - `Board.copy` calls `super().copy` (board.py:369), but `Board` has no
    base class.
- `add_snake` and `place_snakes` are not modelled. Both call `place_snake`
  (board.py:127-130, 149-151), whose live branch calls `set_snake` on each
  body entry (board.py:137-140). Those entries are the coordinate
  dictionaries `Snake.update_state` stores, not cells, so the call raises
  `AttributeError` for any live snake with a body. The dead branch is
  `Boards.PlaceDeadSnake`.
- `Board.__init__` is not modelled, for the same reason. It calls
  `Snake(id)` on a constructor that takes no id, and `initialize_team`
  passes it a keyword it does not accept. `Team.InitializeTeam` therefore
  takes the roster that `create_snakes` would build as a parameter.
- `Board` and its wrapped `GeneralBoard` are merged into one board.
  `calculate_move` passes the `Board` wrapper to `get_safe_moves`
  (snakeduo.py:95), which calls `board.is_safe` on it (snake.py:96). The
  wrapper has no such method, and this is read as the wrapped board's
  `is_safe`.
- `board_history` holds the board values themselves rather than
  `Board.copy()` results.
- `get_direction_of_food` is called by `calculate_move` but is not defined
  in the repository's files. Its result is an input to
  `Team.CalculateMove`: an optional list of directions per member.
- `random.choice` is not modelled as randomness. It is the input index
  `choice`, reduced modulo the number of safe moves.
- The dead code after `continue` in `get_safe_moves` and the empty
  `choose_move`, `minimax` and `minimax_heuristic` stubs are not modelled.
- `Boards.PlaceDeadSnake`: only the dead-snake branch of `place_snake` is
  modelled. The live branch calls `set_snake` on the body entries, which
  are coordinate dictionaries rather than cells. `Board.set_snake_position`
  is modelled in its place.
- Team.UpdateState: when the call raises, the model returns only the
  error. The source has already advanced the turn counter and partly
  reloaded the board by then. `Team.CalculateMove` does model its partial
  state.
- BoardLoad.LoadState: when the call raises, the model returns only the
  error. By then the source has already cleared and flagged cells, and
  when the failing item is a snake entry it has also written the earlier
  entries' bodies onto their squares and refreshed their roster snakes
  (board.py:345-358).
- Team.InitializeTeam: when loading raises, the model returns only the
  error. The source has already recorded the turn and the fresh board by
  then (snakeduo.py:42-48).
- Team.GetMove: `snake1_move` and `snake2_move` are never initialized in
  the constructor, so reading them before the first `calculate_move`
  raises `AttributeError`. The model starts them as `None`.
- Unbounded Python integers are modelled as Dafny `int`. Board width and
  height are `nat`, because a negative size builds no grid at all.
- Starter.StarterMove: the game-state dictionary and its missing-key
  errors are not modelled. The input is the body, the board size and the
  food list.

## Findings

| source | as written | input that shows it | evidently intended | confidence | as-written member | corrected member |
|---|---|---|---|---|---|---|
| main.py:54-62 | the wall check tests x = 0 and x = width - 1 with `if`/`elif`, and the same for y, so on a board one square wide only "left" is ruled out at x = 0 | a 1 by h board with h >= 2, body `[(0, h-1), (0, h-2)]`, food `[(0, 0)]`, random index 0: the move is "right", off the board | each edge tested independently, so no allowed move leaves the board | medium, not executed | Starter.ElifWallsLeaveNarrowBoard | Starter.BoundedMoveStaysOnBoard |
| snakeduo.py:36-62 | `initialize_team` loads the snapshot into the board but not into the two members, and the move request of the same turn is not strictly later, so `update_state` skips it | team start at turn 0, then the turn-0 move request: `calculate_move` asks a live member for its safe moves while it has no head | members refreshed from the snapshot at initialization, so the first move can be computed | medium, not executed | Team.FirstMoveRaises | Team.RefreshedFirstMoveSucceeds |

=== FILE: board.dfy ===
/** The grid of `board.py` (`GeneralBoard`): bounds checks, safety, the
    direction between two squares, grid construction, removing a snake, the
    nearest-snake query and roster lookup. */
module Boards {
  import opened Py
  import opened Geometry
  import opened Snakes
  import opened Cells

  /** `cells[x][y]` is the square at `(x, y)`; `snakes` is the roster. */
  datatype GeneralBoard = GeneralBoard(
    width: nat,
    height: nat,
    cells: seq<seq<Cell>>,
    snakes: seq<Snake>)

  /** The grid has `width` columns of `height` squares, and every square
      knows its own coordinates. */
  ghost predicate WellFormed(b: GeneralBoard)
  {
    && |b.cells| == b.width
    && (forall x :: 0 <= x < |b.cells| ==> |b.cells[x]| == b.height)
    && (forall x, y :: 0 <= x < |b.cells| && 0 <= y < |b.cells[x]| ==>
          b.cells[x][y].x == x && b.cells[x][y].y == y)
  }

  /** The roster holds each client id at most once (the id-keyed
      `snake_map` sees every rostered snake). */
  predicate RosterUnique(snakes: seq<Snake>)
  {
    forall i, j :: 0 <= i < j < |snakes| && snakes[i].clientId.Some? ==>
      snakes[i].clientId != snakes[j].clientId
  }

  /** `(x, y)` lies on the board: on a well-formed grid it names a stored
      square sitting at exactly that position. */
  predicate IsValidCell(b: GeneralBoard, x: int, y: int)
    ensures IsValidCell(b, x, y) && WellFormed(b) ==>
      0 <= x < |b.cells| && 0 <= y < |b.cells[x]| && b.cells[x][y].x == x && b.cells[x][y].y == y
  {
    0 <= x < b.width && 0 <= y < b.height
  }

  /** The square at `(x, y)`, or `None` off the board. */
  function GetCell(b: GeneralBoard, x: int, y: int): (r: Option<Cell>)
    requires WellFormed(b)
    ensures r.None? <==> !IsValidCell(b, x, y)
    ensures r.Some? ==> r.value.x == x && r.value.y == y
    ensures r.Some? ==> r.value == b.cells[x][y]
  {
    if x < 0 || x >= b.width || y < 0 || y >= b.height then None
    else Some(b.cells[x][y])
  }

  /** Off the board nothing is safe; on it, safety is the square's. */
  predicate IsSafe(b: GeneralBoard, x: int, y: int)
    requires WellFormed(b)
    ensures IsSafe(b, x, y) ==> IsValidCell(b, x, y)
    ensures IsValidCell(b, x, y) ==>
      (IsSafe(b, x, y) <==> b.cells[x][y].occupant.None? && !b.cells[x][y].hazard)
  {
    if !IsValidCell(b, x, y) then false
    else Cells.IsSafe(b.cells[x][y])
  }

  /** Replaces the square at `(x, y)`. */
  function WithCell(b: GeneralBoard, x: int, y: int, c: Cell): (r: GeneralBoard)
    requires WellFormed(b) && IsValidCell(b, x, y)
    requires c.x == x && c.y == y
    ensures WellFormed(r)
    ensures r.width == b.width && r.height == b.height && r.snakes == b.snakes
    ensures r.cells[x][y] == c
    ensures forall i, j :: 0 <= i < r.width && 0 <= j < r.height && (i != x || j != y) ==>
      r.cells[i][j] == b.cells[i][j]
  {
    b.(cells := b.cells[x := b.cells[x][y := c]])
  }

  /** Putting food on any square changes no square's safety. */
  lemma SafetyIgnoresFood(b: GeneralBoard, fx: int, fy: int, x: int, y: int)
    requires WellFormed(b) && IsValidCell(b, fx, fy)
    ensures IsSafe(WithCell(b, fx, fy, SetFlag(b.cells[fx][fy], FoodFlag)), x, y) == IsSafe(b, x, y)
  {
  }

  function Horizontal(c1: Cell, c2: Cell): seq<Direction>
  {
    if c1.x < c2.x then [Right] else if c1.x > c2.x then [Left] else []
  }

  function Vertical(c1: Cell, c2: Cell): seq<Direction>
  {
    if c1.y < c2.y then [Up] else if c1.y > c2.y then [Down] else []
  }

  /** The directions leading from `c1` towards `c2`: at most one horizontal,
      then at most one vertical. */
  function DirectionBetween(c1: Cell, c2: Cell): (r: seq<Direction>)
    ensures |r| <= 2
    ensures Right in r <==> c1.x < c2.x
    ensures Left in r <==> c1.x > c2.x
    ensures Up in r <==> c1.y < c2.y
    ensures Down in r <==> c1.y > c2.y
    ensures r == [] <==> c1.x == c2.x && c1.y == c2.y
    ensures |r| == 2 ==> (r[0] == Left || r[0] == Right) && (r[1] == Up || r[1] == Down)
  {
    Horizontal(c1, c2) + Vertical(c1, c2)
  }

  function At(c: Cell): Point
  {
    Point(c.x, c.y)
  }

  /** A direction is returned exactly when one step in it brings `c1` one
      square closer to `c2`. */
  lemma DirectionsApproach(c1: Cell, c2: Cell, d: Direction)
    ensures d in DirectionBetween(c1, c2) <==> Approaches(At(c1), At(c2), d)
  {
  }

  /** The grid that `create_cells` builds. */
  function Grid(w: nat, h: nat): (g: seq<seq<Cell>>)
    ensures |g| == w
    ensures forall x :: 0 <= x < w ==> |g[x]| == h
  {
    seq(w, x => seq(h, y => NewCell(x, y)))
  }

  /** The rows one after another: the order of `all_cells` and of a nested
      `for row in cells: for cell in row` scan. */
  function Flatten(rows: seq<seq<Cell>>): seq<Cell>
  {
    if |rows| == 0 then [] else Flatten(rows[..|rows| - 1]) + rows[|rows| - 1]
  }

  function AllCells(b: GeneralBoard): seq<Cell>
  {
    Flatten(b.cells)
  }

  /** In a grid of columns of height `h`, square `(x, y)` is entry
      `x * h + y` of the flattened list. */
  lemma {:induction false} FlattenIndex(rows: seq<seq<Cell>>, h: nat, x: nat, y: nat)
    requires forall i :: 0 <= i < |rows| ==> |rows[i]| == h
    requires x < |rows| && y < h
    ensures |Flatten(rows)| == |rows| * h
    ensures x * h + y < |Flatten(rows)| && Flatten(rows)[x * h + y] == rows[x][y]
  {
    var n := |rows| - 1;
    FlattenLength(rows, h);
    FlattenLength(rows[..n], h);
    if x < n {
      FlattenIndex(rows[..n], h, x, y);
      assert x * h + y < n * h by {
        MulMonotone(x + 1, n, h);
      }
    } else {
      assert x == n;
    }
  }

  lemma MulMonotone(a: nat, b: nat, h: nat)
    requires a <= b
    ensures a * h <= b * h
  {
  }

  lemma {:induction false} FlattenLength(rows: seq<seq<Cell>>, h: nat)
    requires forall i :: 0 <= i < |rows| ==> |rows[i]| == h
    ensures |Flatten(rows)| == |rows| * h
  {
    if |rows| > 0 {
      FlattenLength(rows[..|rows| - 1], h);
    }
  }

  /** `create_cells`: column by column, builds the grid and the x-major list
      of all its squares. */
  method CreateCells(w: nat, h: nat) returns (cells: seq<seq<Cell>>, all: seq<Cell>)
    ensures |cells| == w && forall x :: 0 <= x < w ==> |cells[x]| == h
    ensures forall x, y :: 0 <= x < w && 0 <= y < h ==> cells[x][y] == NewCell(x, y)
    ensures all == Flatten(cells)
    ensures |all| == w * h
  {
    cells := [];
    all := [];
    var x := 0;
    while x < w
      invariant 0 <= x <= w
      invariant |cells| == x
      invariant forall i :: 0 <= i < x ==> |cells[i]| == h
      invariant forall i, j :: 0 <= i < x && 0 <= j < h ==> cells[i][j] == NewCell(i, j)
      invariant all == Flatten(cells)
    {
      var column: seq<Cell> := [];
      var y := 0;
      while y < h
        invariant 0 <= y <= h
        invariant |column| == y
        invariant forall j :: 0 <= j < y ==> column[j] == NewCell(x, j)
        invariant all == Flatten(cells) + column
      {
        column := column + [NewCell(x, y)];
        all := all + [NewCell(x, y)];
        y := y + 1;
      }
      assert (cells + [column])[..x] == cells;
      cells := cells + [column];
      x := x + 1;
    }
    FlattenLength(cells, h);
  }

  /** A fresh board: the grid of `create_cells` and the given roster. */
  function NewBoard(w: nat, h: nat, roster: seq<Snake>): (b: GeneralBoard)
    ensures WellFormed(b) && b.width == w && b.height == h && b.snakes == roster
    ensures forall x, y :: 0 <= x < w && 0 <= y < h ==> b.cells[x][y] == NewCell(x, y)
  {
    GeneralBoard(w, h, Grid(w, h), roster)
  }

  /** `clear_cells`: every square back to its freshly created state. */
  function ClearCells(b: GeneralBoard): (r: GeneralBoard)
    requires WellFormed(b)
    ensures WellFormed(r)
    ensures r.width == b.width && r.height == b.height && r.snakes == b.snakes
    ensures forall x, y :: 0 <= x < r.width && 0 <= y < r.height ==>
      IsEmpty(r.cells[x][y]) && r.cells[x][y] == NewCell(x, y)
  {
    b.(cells := seq(b.width, x requires 0 <= x < b.width =>
                  seq(b.height, y requires 0 <= y < b.height => Clear(b.cells[x][y]))))
  }

  /** Whether square `c` names snake `s` (`cell.snake and cell.snake == snake`). */
  predicate Holds(c: Cell, s: Snake)
  {
    c.occupant.Some? && c.occupant == s.clientId
  }

  /** `clear_snake`: takes `s` off every square it lies on. */
  function ClearSnake(b: GeneralBoard, s: Snake): (r: GeneralBoard)
    requires WellFormed(b)
    ensures WellFormed(r)
    ensures r.width == b.width && r.height == b.height && r.snakes == b.snakes
    ensures forall x, y :: 0 <= x < r.width && 0 <= y < r.height ==> !Holds(r.cells[x][y], s)
    ensures forall x, y :: 0 <= x < r.width && 0 <= y < r.height && !Holds(b.cells[x][y], s) ==>
      r.cells[x][y] == b.cells[x][y]
    ensures forall x, y :: 0 <= x < r.width && 0 <= y < r.height && Holds(b.cells[x][y], s) ==>
      r.cells[x][y] == ClearSnakeInfo(b.cells[x][y])
    ensures forall x, y :: 0 <= x < r.width && 0 <= y < r.height ==>
      var c, c' := b.cells[x][y], r.cells[x][y];
      c'.food == c.food && c'.hazard == c.hazard && c'.color == c.color
  {
    b.(cells := seq(b.width, x requires 0 <= x < b.width =>
                  seq(b.height, y requires 0 <= y < b.height =>
                    var c := b.cells[x][y];
                    if Holds(c, s) then ClearSnakeInfo(c) else c)))
  }

  /** `place_snake` for a dead snake: it ends up on no square. */
  function PlaceDeadSnake(b: GeneralBoard, s: Snake): (r: GeneralBoard)
    requires WellFormed(b) && s.isDead
    ensures WellFormed(r) && r.snakes == b.snakes
    ensures r.width == b.width && r.height == b.height
    ensures forall x, y :: 0 <= x < r.width && 0 <= y < r.height ==>
      r.cells[x][y].occupant.None? || r.cells[x][y].occupant != s.clientId
    ensures forall x, y :: 0 <= x < r.width && 0 <= y < r.height && !Holds(b.cells[x][y], s) ==>
      r.cells[x][y] == b.cells[x][y]
    ensures forall x, y :: 0 <= x < r.width && 0 <= y < r.height && Holds(b.cells[x][y], s) ==>
      r.cells[x][y] == ClearSnakeInfo(b.cells[x][y])
  {
    ClearSnake(b, s)
  }

  // ---------------------------------------------------------------------
  // Nearest snakes

  /** Starting value of the nearest-distance search. */
  const Sentinel: nat := 999999999

  predicate LiveHaveHeads(snakes: seq<Snake>)
  {
    forall i :: 0 <= i < |snakes| && !snakes[i].isDead ==> snakes[i].head.Some?
  }

  /** The smallest distance from a live snake's head to `(x, y)`, capped at
      the sentinel. */
  function MinLiveDistance(snakes: seq<Snake>, x: int, y: int): (r: nat)
    requires LiveHaveHeads(snakes)
    ensures r <= Sentinel
    ensures forall i :: 0 <= i < |snakes| && !snakes[i].isDead ==> r <= DistanceTo(snakes[i], x, y)
    ensures r == Sentinel || exists i :: 0 <= i < |snakes| && !snakes[i].isDead && DistanceTo(snakes[i], x, y) == r
  {
    if |snakes| == 0 then Sentinel
    else
      var n := |snakes| - 1;
      var rest := MinLiveDistance(snakes[..n], x, y);
      var last := snakes[n];
      assert forall i :: 0 <= i < n ==> snakes[..n][i] == snakes[i];
      if !last.isDead && DistanceTo(last, x, y) < rest then DistanceTo(last, x, y) else rest
  }

  /** The live snakes at distance exactly `d`, in roster order. */
  function LiveAt(snakes: seq<Snake>, x: int, y: int, d: int): (r: seq<Snake>)
    requires LiveHaveHeads(snakes)
    ensures forall s :: s in r ==> s in snakes && !s.isDead && s.head.Some? && DistanceTo(s, x, y) == d
  {
    if |snakes| == 0 then []
    else
      var n := |snakes| - 1;
      var last := snakes[n];
      LiveAt(snakes[..n], x, y, d)
        + (if !last.isDead && DistanceTo(last, x, y) == d then [last] else [])
  }

  /** What `get_closest_snake` is meant to compute: the nearest distance and
      every live snake at it. */
  function ClosestSnakes(snakes: seq<Snake>, x: int, y: int): (seq<Snake>, nat)
    requires LiveHaveHeads(snakes)
  {
    var d := MinLiveDistance(snakes, x, y);
    (LiveAt(snakes, x, y, d), d)
  }

  lemma {:induction false} NoneCloserThanMin(snakes: seq<Snake>, x: int, y: int, d: int)
    requires LiveHaveHeads(snakes)
    requires d < MinLiveDistance(snakes, x, y)
    ensures LiveAt(snakes, x, y, d) == []
  {
    if |snakes| > 0 {
      var n := |snakes| - 1;
      assert LiveHaveHeads(snakes[..n]);
      NoneCloserThanMin(snakes[..n], x, y, d);
    }
  }

  /** Extending a roster prefix by one snake: how the minimum and the
      snakes at each distance change. */
  lemma ClosestStep(snakes: seq<Snake>, x: int, y: int, i: int)
    requires LiveHaveHeads(snakes) && 0 <= i < |snakes|
    ensures LiveHaveHeads(snakes[..i]) && LiveHaveHeads(snakes[..i + 1])
    ensures var s, m := snakes[i], MinLiveDistance(snakes[..i], x, y);
      MinLiveDistance(snakes[..i + 1], x, y) == (if !s.isDead && DistanceTo(s, x, y) < m then DistanceTo(s, x, y) else m)
    ensures forall d :: (LiveAt(snakes[..i + 1], x, y, d) ==
      LiveAt(snakes[..i], x, y, d) + (if !snakes[i].isDead && DistanceTo(snakes[i], x, y) == d then [snakes[i]] else []))
  {
    assert snakes[..i + 1][..i] == snakes[..i];
    assert snakes[..i + 1][i] == snakes[i];
  }

  /** One iteration of the `get_closest_snake` loop: a dead snake is
      skipped; a live one at the best distance so far joins the list, and a
      strictly nearer one starts a new list. */
  function Visit(closest: seq<Snake>, distance: nat, s: Snake, x: int, y: int): (r: (seq<Snake>, nat))
    requires !s.isDead ==> s.head.Some?
    ensures r.1 <= distance
  {
    if s.isDead then (closest, distance)
    else
      var dist := DistanceTo(s, x, y);
      var joined := if dist == distance then closest + [s] else closest;
      if dist < distance then ([s], dist) else (joined, distance)
  }

  /** Visiting the next snake of the roster turns the nearest snakes of a
      prefix into those of the prefix one longer. */
  lemma VisitExtends(snakes: seq<Snake>, x: int, y: int, i: int)
    requires LiveHaveHeads(snakes) && 0 <= i < |snakes|
    ensures LiveHaveHeads(snakes[..i]) && LiveHaveHeads(snakes[..i + 1])
    ensures var (c, d) := ClosestSnakes(snakes[..i], x, y);
      Visit(c, d, snakes[i], x, y) == ClosestSnakes(snakes[..i + 1], x, y)
  {
    ClosestStep(snakes, x, y, i);
    var s, p, q := snakes[i], snakes[..i], snakes[..i + 1];
    var m := MinLiveDistance(p, x, y);
    if s.isDead {
      assert MinLiveDistance(q, x, y) == m && LiveAt(q, x, y, m) == LiveAt(p, x, y, m);
    } else {
      var e := DistanceTo(s, x, y);
      if e < m {
        NoneCloserThanMin(p, x, y, e);
        assert MinLiveDistance(q, x, y) == e && LiveAt(q, x, y, e) == [] + [s];
        assert [] + [s] == [s];
      } else if e == m {
        assert MinLiveDistance(q, x, y) == m && LiveAt(q, x, y, m) == LiveAt(p, x, y, m) + [s];
      } else {
        assert MinLiveDistance(q, x, y) == m && LiveAt(q, x, y, m) == LiveAt(p, x, y, m) + [];
        assert LiveAt(p, x, y, m) + [] == LiveAt(p, x, y, m);
      }
    }
  }

  /** `get_closest_snake`: one pass over the roster, skipping dead snakes,
      keeping the best distance so far and the snakes that reach it. */
  method GetClosestSnake(b: GeneralBoard, x: int, y: int) returns (closest: seq<Snake>, distance: nat)
    requires LiveHaveHeads(b.snakes)
    ensures (closest, distance) == ClosestSnakes(b.snakes, x, y)
    ensures distance <= Sentinel
    ensures forall s :: s in closest ==> s in b.snakes && !s.isDead && s.head.Some? && DistanceTo(s, x, y) == distance
    ensures forall i :: 0 <= i < |b.snakes| && !b.snakes[i].isDead ==> distance <= DistanceTo(b.snakes[i], x, y)
  {
    var snakes := b.snakes;
    closest := [];
    distance := Sentinel;
    var i := 0;
    while i < |snakes|
      invariant 0 <= i <= |snakes|
      invariant LiveHaveHeads(snakes[..i])
      invariant (closest, distance) == ClosestSnakes(snakes[..i], x, y)
    {
      VisitExtends(snakes, x, y, i);
      var next := Visit(closest, distance, snakes[i], x, y);
      closest, distance := next.0, next.1;
      i := i + 1;
    }
    assert snakes[..i] == snakes;
  }

  /** `calculate_closest_snake`: annotates every square with its nearest
      snakes and their distance. */
  function CalculateClosestSnake(b: GeneralBoard): (r: GeneralBoard)
    requires WellFormed(b) && LiveHaveHeads(b.snakes)
    ensures WellFormed(r)
    ensures r.width == b.width && r.height == b.height && r.snakes == b.snakes
    ensures forall x, y :: 0 <= x < r.width && 0 <= y < r.height ==>
      var c, c' := b.cells[x][y], r.cells[x][y];
      && c'.food == c.food && c'.hazard == c.hazard && c'.occupant == c.occupant
      && c'.isHead == c.isHead && c'.color == c.color
      && c'.closestSnakes == Some(ClosestSnakes(b.snakes, x, y).0)
      && c'.closestDistance == Some(ClosestSnakes(b.snakes, x, y).1)
  {
    b.(cells := seq(b.width, x requires 0 <= x < b.width =>
                  seq(b.height, y requires 0 <= y < b.height =>
                    var c := b.cells[x][y];
                    var (near, d) := ClosestSnakes(b.snakes, c.x, c.y);
                    c.(closestSnakes := Some(near), closestDistance := Some(d)))))
  }

  // ---------------------------------------------------------------------
  // Roster lookup

  /** Position of the first rostered snake with client id `id`. */
  function SnakeIndex(snakes: seq<Snake>, id: string): (r: Option<nat>)
    ensures r.None? <==> forall j :: 0 <= j < |snakes| ==> snakes[j].clientId != Some(id)
    ensures r.Some? ==> r.value < |snakes| && snakes[r.value].clientId == Some(id)
    ensures r.Some? ==> forall j :: 0 <= j < r.value ==> snakes[j].clientId != Some(id)
  {
    if |snakes| == 0 then None
    else if snakes[0].clientId == Some(id) then Some(0)
    else match SnakeIndex(snakes[1..], id)
      case None => None
      case Some(k) => Some(k + 1)
  }

  /** `get_snake`: the first rostered snake with client id `id`, if any. */
  function GetSnake(b: GeneralBoard, id: string): (r: Option<Snake>)
    ensures r.Some? ==> r.value in b.snakes && r.value.clientId == Some(id)
    ensures r.Some? ==> exists i :: (0 <= i < |b.snakes| && b.snakes[i] == r.value
      && forall j :: 0 <= j < i ==> b.snakes[j].clientId != Some(id))
    ensures r.None? <==> forall s :: s in b.snakes ==> s.clientId != Some(id)
  {
    match SnakeIndex(b.snakes, id)
    case None => None
    case Some(i) => Some(b.snakes[i])
  }
}

=== FILE: board_load.dfy ===
/** `Board.update_state`: reloading the grid from one turn's snapshot.
    Every square is reset, food and hazards are marked, each snapshot snake
    is written onto its squares and its roster entry refreshed, rostered
    snakes missing from the snapshot are killed, and the nearest-snake
    annotations are recomputed. Coordinates index Python lists, so a
    negative coordinate counts from the far edge and one outside
    `[-size, size)` raises; an id missing from the roster raises too. */
module BoardLoad {
  import opened Py
  import opened Geometry
  import opened Snakes
  import opened Cells
  import opened Boards

  /** The `board` part of a turn snapshot. */
  datatype BoardState = BoardState(
    width: nat,
    height: nat,
    food: seq<Point>,
    hazards: seq<Point>,
    snakes: seq<SnakeInfo>)

  /** What `update_state` raises. */
  datatype LoadError = IndexOutOfRange(p: Point) | UnknownSnake(id: string)

  /** The square `cells[p.x][p.y]` reads on a `w` by `h` grid. */
  function Resolve(w: nat, h: nat, p: Point): (r: Option<Point>)
    ensures r.Some? ==> 0 <= r.value.x < w && 0 <= r.value.y < h
    ensures r.Some? <==> 0 <= p.x + w && p.x < w && 0 <= p.y + h && p.y < h
    ensures 0 <= p.x < w && 0 <= p.y < h ==> r == Some(p)
  {
    match PyIndex(p.x, w)
    case None => None
    case Some(i) =>
      match PyIndex(p.y, h)
      case None => None
      case Some(j) => Some(Point(i, j))
  }

  /** Some point of `pts` reads square `(x, y)`. */
  predicate Hits(w: nat, h: nat, pts: seq<Point>, x: int, y: int)
  {
    exists i :: 0 <= i < |pts| && Resolve(w, h, pts[i]) == Some(Point(x, y))
  }

  predicate AllResolve(w: nat, h: nat, pts: seq<Point>)
  {
    forall i :: 0 <= i < |pts| ==> Resolve(w, h, pts[i]).Some?
  }

  /** Index of the last point of `pts` that reads square `(x, y)`. */
  function LastHit(w: nat, h: nat, pts: seq<Point>, x: int, y: int): (k: nat)
    requires Hits(w, h, pts, x, y)
    ensures k < |pts| && Resolve(w, h, pts[k]) == Some(Point(x, y))
    ensures forall j :: k < j < |pts| ==> Resolve(w, h, pts[j]) != Some(Point(x, y))
  {
    var n := |pts| - 1;
    if Resolve(w, h, pts[n]) == Some(Point(x, y)) then n
    else
      var i :| 0 <= i < |pts| && Resolve(w, h, pts[i]) == Some(Point(x, y));
      assert pts[..n][i] == pts[i];
      var k := LastHit(w, h, pts[..n], x, y);
      assert pts[..n][k] == pts[k];
      k
  }

  lemma HitsPrefix(w: nat, h: nat, pts: seq<Point>, x: int, y: int)
    requires |pts| > 0
    ensures var n := |pts| - 1;
      Hits(w, h, pts, x, y) <==> Hits(w, h, pts[..n], x, y) || Resolve(w, h, pts[n]) == Some(Point(x, y))
  {
    var n := |pts| - 1;
    if Hits(w, h, pts[..n], x, y) {
      var i :| 0 <= i < n && Resolve(w, h, pts[..n][i]) == Some(Point(x, y));
      assert pts[i] == pts[..n][i];
    }
    if Hits(w, h, pts, x, y) && Resolve(w, h, pts[n]) != Some(Point(x, y)) {
      var i :| 0 <= i < |pts| && Resolve(w, h, pts[i]) == Some(Point(x, y));
      assert pts[..n][i] == pts[i];
    }
  }

  lemma AllResolvePrefix(w: nat, h: nat, pts: seq<Point>)
    requires |pts| > 0
    ensures var n := |pts| - 1;
      AllResolve(w, h, pts) <==> AllResolve(w, h, pts[..n]) && Resolve(w, h, pts[n]).Some?
  {
    var n := |pts| - 1;
    assert forall i :: 0 <= i < n ==> pts[..n][i] == pts[i];
  }

  /** Sets flag `f` on every square a point of `pts` reads, in list order,
      raising at the first point off the grid. */
  function MarkFlags(b: GeneralBoard, pts: seq<Point>, f: Flag): (r: Result<GeneralBoard, LoadError>)
    requires WellFormed(b)
    ensures r.Ok? <==> AllResolve(b.width, b.height, pts)
    ensures r.Err? ==> exists i :: (0 <= i < |pts| && r.error == IndexOutOfRange(pts[i])
                                    && Resolve(b.width, b.height, pts[i]).None?)
    ensures r.Ok? ==> (WellFormed(r.value)
                       && r.value.width == b.width && r.value.height == b.height && r.value.snakes == b.snakes)
    ensures r.Ok? ==> forall x, y :: 0 <= x < b.width && 0 <= y < b.height ==>
      r.value.cells[x][y] == (if Hits(b.width, b.height, pts, x, y) then SetFlag(b.cells[x][y], f) else b.cells[x][y])
  {
    if |pts| == 0 then Ok(b)
    else
      var n := |pts| - 1;
      AllResolvePrefix(b.width, b.height, pts);
      match MarkFlags(b, pts[..n], f)
      case Err(e) =>
        RaisedInPrefix(b.width, b.height, pts, pts[..n], e);
        Err(e)
      case Ok(b1) =>
        match Resolve(b.width, b.height, pts[n])
        case None => Err(IndexOutOfRange(pts[n]))
        case Some(p) =>
          var r := WithCell(b1, p.x, p.y, SetFlag(b1.cells[p.x][p.y], f));
          MarkFlagsStep(b, pts, f, b1, p);
          Ok(r)
  }

  /** An error raised on the prefix `pre` of `pts` names a point of `pts`. */
  lemma RaisedInPrefix(w: nat, h: nat, pts: seq<Point>, pre: seq<Point>, e: LoadError)
    requires pre <= pts
    requires exists i :: 0 <= i < |pre| && e == IndexOutOfRange(pre[i]) && Resolve(w, h, pre[i]).None?
    ensures exists i :: 0 <= i < |pts| && e == IndexOutOfRange(pts[i]) && Resolve(w, h, pts[i]).None?
  {
    var i :| 0 <= i < |pre| && e == IndexOutOfRange(pre[i]) && Resolve(w, h, pre[i]).None?;
    assert pre[i] == pts[i];
  }

  /** Inductive step of `MarkFlags`: flagging the square of the last point
      on top of a grid already flagged for the others. */
  lemma {:induction false} MarkFlagsStep(b: GeneralBoard, pts: seq<Point>, f: Flag, b1: GeneralBoard, p: Point)
    requires WellFormed(b) && WellFormed(b1) && b1.width == b.width && b1.height == b.height
    requires |pts| > 0 && Resolve(b.width, b.height, pts[|pts| - 1]) == Some(p)
    requires forall x, y :: 0 <= x < b.width && 0 <= y < b.height ==>
      b1.cells[x][y] == (if Hits(b.width, b.height, pts[..|pts| - 1], x, y) then SetFlag(b.cells[x][y], f) else b.cells[x][y])
    ensures var r := WithCell(b1, p.x, p.y, SetFlag(b1.cells[p.x][p.y], f));
      forall x, y :: 0 <= x < b.width && 0 <= y < b.height ==>
        r.cells[x][y] == (if Hits(b.width, b.height, pts, x, y) then SetFlag(b.cells[x][y], f) else b.cells[x][y])
  {
    var r := WithCell(b1, p.x, p.y, SetFlag(b1.cells[p.x][p.y], f));
    forall x, y | 0 <= x < b.width && 0 <= y < b.height
      ensures r.cells[x][y] == (if Hits(b.width, b.height, pts, x, y) then SetFlag(b.cells[x][y], f) else b.cells[x][y])
    {
      HitsPrefix(b.width, b.height, pts, x, y);
    }
  }

  /** Writes snake `id` onto every square of `body`, in order; a square's
      head flag comes from the last body part written there. */
  function MarkBody(b: GeneralBoard, id: string, body: seq<Point>, head: Point): (r: Result<GeneralBoard, LoadError>)
    requires WellFormed(b)
    ensures r.Ok? <==> AllResolve(b.width, b.height, body)
    ensures r.Err? ==> exists i :: (0 <= i < |body| && r.error == IndexOutOfRange(body[i])
                                    && Resolve(b.width, b.height, body[i]).None?)
    ensures r.Ok? ==> (WellFormed(r.value)
                       && r.value.width == b.width && r.value.height == b.height && r.value.snakes == b.snakes)
    ensures r.Ok? ==> forall x, y :: 0 <= x < b.width && 0 <= y < b.height ==>
      r.value.cells[x][y] ==
        (if Hits(b.width, b.height, body, x, y)
         then SetSnake(b.cells[x][y], id, body[LastHit(b.width, b.height, body, x, y)] == head)
         else b.cells[x][y])
  {
    if |body| == 0 then Ok(b)
    else
      var n := |body| - 1;
      AllResolvePrefix(b.width, b.height, body);
      match MarkBody(b, id, body[..n], head)
      case Err(e) =>
        RaisedInPrefix(b.width, b.height, body, body[..n], e);
        Err(e)
      case Ok(b1) =>
        match Resolve(b.width, b.height, body[n])
        case None => Err(IndexOutOfRange(body[n]))
        case Some(p) =>
          var r := WithCell(b1, p.x, p.y, SetSnake(b1.cells[p.x][p.y], id, body[n] == head));
          MarkBodyStep(b, id, body, head, b1, p);
          Ok(r)
  }

  /** Inductive step of `MarkBody`: writing the snake onto the square of
      the last body part, on top of a grid holding the earlier parts. */
  lemma {:induction false} MarkBodyStep(b: GeneralBoard, id: string, body: seq<Point>, head: Point, b1: GeneralBoard, p: Point)
    requires WellFormed(b) && WellFormed(b1) && b1.width == b.width && b1.height == b.height
    requires |body| > 0 && Resolve(b.width, b.height, body[|body| - 1]) == Some(p)
    requires forall x, y :: 0 <= x < b.width && 0 <= y < b.height ==>
      b1.cells[x][y] ==
        (if Hits(b.width, b.height, body[..|body| - 1], x, y)
         then SetSnake(b.cells[x][y], id, body[..|body| - 1][LastHit(b.width, b.height, body[..|body| - 1], x, y)] == head)
         else b.cells[x][y])
    ensures var r := WithCell(b1, p.x, p.y, SetSnake(b1.cells[p.x][p.y], id, body[|body| - 1] == head));
      forall x, y :: 0 <= x < b.width && 0 <= y < b.height ==>
        r.cells[x][y] ==
          (if Hits(b.width, b.height, body, x, y)
           then SetSnake(b.cells[x][y], id, body[LastHit(b.width, b.height, body, x, y)] == head)
           else b.cells[x][y])
  {
    var n := |body| - 1;
    var r := WithCell(b1, p.x, p.y, SetSnake(b1.cells[p.x][p.y], id, body[n] == head));
    forall x, y | 0 <= x < b.width && 0 <= y < b.height
      ensures r.cells[x][y] ==
        (if Hits(b.width, b.height, body, x, y)
         then SetSnake(b.cells[x][y], id, body[LastHit(b.width, b.height, body, x, y)] == head)
         else b.cells[x][y])
    {
      HitsPrefix(b.width, b.height, body, x, y);
      if Hits(b.width, b.height, body[..n], x, y) && Point(x, y) != p {
        var k := LastHit(b.width, b.height, body[..n], x, y);
        assert body[..n][k] == body[k];
      }
    }
  }

  // ---------------------------------------------------------------------
  // Roster

  /** The last snapshot entry for id `id`: the one whose update survives. */
  function LastInfoFor(infos: seq<SnakeInfo>, id: string): (r: Option<SnakeInfo>)
    ensures r.None? <==> forall k :: 0 <= k < |infos| ==> infos[k].id != id
    ensures r.Some? ==> exists k :: (0 <= k < |infos| && infos[k] == r.value && r.value.id == id
      && forall j :: k < j < |infos| ==> infos[j].id != id)
  {
    if |infos| == 0 then None
    else
      var n := |infos| - 1;
      if infos[n].id == id then Some(infos[n])
      else
        var rest := LastInfoFor(infos[..n], id);
        assert forall k :: 0 <= k < n ==> infos[..n][k] == infos[k];
        rest
  }

  /** Rostered snake `s` after every snapshot entry for it has been
      applied. */
  function Refreshed(s: Snake, infos: seq<SnakeInfo>): Snake
  {
    if s.clientId.Some? && LastInfoFor(infos, s.clientId.value).Some?
    then UpdateState(s, LastInfoFor(infos, s.clientId.value).value)
    else s
  }

  predicate SameIds(a: seq<Snake>, b: seq<Snake>)
  {
    |a| == |b| && forall i :: 0 <= i < |a| ==> a[i].clientId == b[i].clientId
  }

  lemma {:induction false} SnakeIndexSameIds(a: seq<Snake>, b: seq<Snake>, id: string)
    requires SameIds(a, b)
    ensures SnakeIndex(a, id) == SnakeIndex(b, id)
  {
    if |a| > 0 {
      assert SameIds(a[1..], b[1..]) by {
        forall i | 0 <= i < |a[1..]| ensures a[1..][i].clientId == b[1..][i].clientId {
          assert a[1..][i] == a[i + 1];
        }
      }
      SnakeIndexSameIds(a[1..], b[1..], id);
    }
  }

  /** Every snapshot entry names a rostered snake and lies on the grid. */
  predicate Placeable(roster: seq<Snake>, w: nat, h: nat, infos: seq<SnakeInfo>)
  {
    forall k :: 0 <= k < |infos| ==>
      SnakeIndex(roster, infos[k].id).Some? && AllResolve(w, h, infos[k].body)
  }

  lemma PlaceablePrefix(roster: seq<Snake>, w: nat, h: nat, infos: seq<SnakeInfo>)
    requires |infos| > 0
    ensures var n := |infos| - 1;
      Placeable(roster, w, h, infos) <==>
        Placeable(roster, w, h, infos[..n])
        && SnakeIndex(roster, infos[n].id).Some? && AllResolve(w, h, infos[n].body)
  {
    var n := |infos| - 1;
    assert forall k :: 0 <= k < n ==> infos[..n][k] == infos[k];
  }

  /** Index of the last snapshot entry whose body reads square `(x, y)`:
      the entry whose write to that square survives. */
  function LastEntry(w: nat, h: nat, infos: seq<SnakeInfo>, x: int, y: int): (r: Option<nat>)
    ensures r.None? <==> forall k :: 0 <= k < |infos| ==> !Hits(w, h, infos[k].body, x, y)
    ensures r.Some? ==> r.value < |infos| && Hits(w, h, infos[r.value].body, x, y)
    ensures r.Some? ==> forall k :: r.value < k < |infos| ==> !Hits(w, h, infos[k].body, x, y)
  {
    if |infos| == 0 then None
    else
      var n := |infos| - 1;
      if Hits(w, h, infos[n].body, x, y) then Some(n)
      else
        var rest := LastEntry(w, h, infos[..n], x, y);
        assert forall k :: 0 <= k < n ==> infos[..n][k] == infos[k];
        rest
  }

  /** What a snapshot leaves on square `(x, y)`: the id of the last entry
      whose body reads it, and whether that entry's last part there is its
      head; no snake and no head when no entry reads it. */
  function Occupancy(w: nat, h: nat, infos: seq<SnakeInfo>, x: int, y: int): (Option<string>, bool)
  {
    match LastEntry(w, h, infos, x, y)
    case None => (None, false)
    case Some(k) =>
      var e := infos[k];
      (Some(e.id), e.body[LastHit(w, h, e.body, x, y)] == e.head)
  }

  /** Square `c` with the snapshot's snakes written onto it. */
  function Placed(c: Cell, w: nat, h: nat, infos: seq<SnakeInfo>, x: int, y: int): Cell
  {
    var occ := Occupancy(w, h, infos, x, y);
    if occ.0.Some? then SetSnake(c, occ.0.value, occ.1) else c
  }

  /** Writing one more entry onto a square: a later write replaces the
      occupant and head flag of an earlier one. */
  lemma {:induction false} PlacedStep(c: Cell, w: nat, h: nat, infos: seq<SnakeInfo>, x: int, y: int)
    requires |infos| > 0
    ensures var n, e := |infos| - 1, infos[|infos| - 1];
      Placed(c, w, h, infos, x, y) ==
        (if Hits(w, h, e.body, x, y)
         then SetSnake(Placed(c, w, h, infos[..n], x, y), e.id, e.body[LastHit(w, h, e.body, x, y)] == e.head)
         else Placed(c, w, h, infos[..n], x, y))
  {
    var n, e := |infos| - 1, infos[|infos| - 1];
    if !Hits(w, h, e.body, x, y) {
      assert LastEntry(w, h, infos, x, y) == LastEntry(w, h, infos[..n], x, y);
      match LastEntry(w, h, infos, x, y)
      case None =>
      case Some(k) => assert infos[..n][k] == infos[k];
    }
  }

  /** `r` is grid `b` with the snapshot's snakes written onto it. */
  ghost predicate CellsPlaced(b: GeneralBoard, r: GeneralBoard, infos: seq<SnakeInfo>)
  {
    && WellFormed(b) && WellFormed(r) && r.width == b.width && r.height == b.height
    && forall x, y :: 0 <= x < b.width && 0 <= y < b.height ==>
         r.cells[x][y] == Placed(b.cells[x][y], b.width, b.height, infos, x, y)
  }

  /** Every rostered snake carries its latest snapshot entry, if any. */
  predicate RosterRefreshed(before: seq<Snake>, after: seq<Snake>, infos: seq<SnakeInfo>)
  {
    |after| == |before| && forall i :: 0 <= i < |before| ==> after[i] == Refreshed(before[i], infos)
  }

  /** `set_snake_position` followed by the roster snake's `update_state`,
      for every snapshot entry in order. */
  function PlaceSnakes(b: GeneralBoard, infos: seq<SnakeInfo>): (r: Result<GeneralBoard, LoadError>)
    requires WellFormed(b) && RosterUnique(b.snakes)
    ensures r.Ok? <==> Placeable(b.snakes, b.width, b.height, infos)
    ensures r.Err? && r.error.UnknownSnake? ==> SnakeIndex(b.snakes, r.error.id).None?
    ensures r.Ok? ==> CellsPlaced(b, r.value, infos)
    ensures r.Ok? ==> SameIds(r.value.snakes, b.snakes) && RosterUnique(r.value.snakes)
    ensures r.Ok? ==> RosterRefreshed(b.snakes, r.value.snakes, infos)
  {
    if |infos| == 0 then Ok(b)
    else
      var n := |infos| - 1;
      var info := infos[n];
      PlaceablePrefix(b.snakes, b.width, b.height, infos);
      match PlaceSnakes(b, infos[..n])
      case Err(e) => Err(e)
      case Ok(b1) =>
        SnakeIndexSameIds(b1.snakes, b.snakes, info.id);
        match SnakeIndex(b1.snakes, info.id)
        case None => Err(UnknownSnake(info.id))
        case Some(k) =>
          match MarkBody(b1, info.id, info.body, info.head)
          case Err(e) => Err(e)
          case Ok(b2) =>
            var r := b2.(snakes := b2.snakes[k := UpdateState(b2.snakes[k], info)]);
            PlaceSnakesRosterStep(b.snakes, infos, b1.snakes, k);
            PlaceSnakesCellsStep(b, infos, b1, b2);
            Ok(r)
  }

  /** Roster half of the inductive step of `PlaceSnakes`. */
  lemma PlaceSnakesRosterStep(roster: seq<Snake>, infos: seq<SnakeInfo>, before: seq<Snake>, k: nat)
    requires RosterUnique(roster) && |infos| > 0
    requires SameIds(before, roster) && RosterRefreshed(roster, before, infos[..|infos| - 1])
    requires SnakeIndex(before, infos[|infos| - 1].id) == Some(k)
    ensures var after := before[k := UpdateState(before[k], infos[|infos| - 1])];
      SameIds(after, roster) && RosterUnique(after) && RosterRefreshed(roster, after, infos)
  {
    var n := |infos| - 1;
    var info := infos[n];
    var after := before[k := UpdateState(before[k], info)];
    assert forall i :: 0 <= i < |after| ==> after[i].clientId == roster[i].clientId;
    forall i | 0 <= i < |roster|
      ensures after[i] == Refreshed(roster[i], infos)
    {
      var s := roster[i];
      if i == k {
        assert LastInfoFor(infos, info.id) == Some(info);
        if LastInfoFor(infos[..n], info.id).Some? {
          UpdateStateLastWins(s, LastInfoFor(infos[..n], info.id).value, info);
        }
      } else {
        assert s.clientId != Some(info.id) by {
          assert roster[k].clientId == Some(info.id);
        }
        if s.clientId.Some? {
          assert LastInfoFor(infos, s.clientId.value) == LastInfoFor(infos[..n], s.clientId.value);
        }
      }
    }
  }

  /** Grid half of the inductive step of `PlaceSnakes`. */
  lemma PlaceSnakesCellsStep(b: GeneralBoard, infos: seq<SnakeInfo>, b1: GeneralBoard, b2: GeneralBoard)
    requires WellFormed(b) && |infos| > 0
    requires CellsPlaced(b, b1, infos[..|infos| - 1])
    requires MarkBody(b1, infos[|infos| - 1].id, infos[|infos| - 1].body, infos[|infos| - 1].head) == Ok(b2)
    ensures CellsPlaced(b, b2, infos)
  {
    var n := |infos| - 1;
    var info := infos[n];
    forall x, y | 0 <= x < b.width && 0 <= y < b.height
      ensures b2.cells[x][y] == Placed(b.cells[x][y], b.width, b.height, infos, x, y)
    {
      PlacedStep(b.cells[x][y], b.width, b.height, infos, x, y);
    }
  }

  /** The ids the snapshot lists, in order. */
  function Ids(infos: seq<SnakeInfo>): (ids: seq<string>)
    ensures forall id :: id in ids <==> exists k :: 0 <= k < |infos| && infos[k].id == id
  {
    var ids := seq(|infos|, k requires 0 <= k < |infos| => infos[k].id);
    assert forall k :: 0 <= k < |infos| ==> ids[k] == infos[k].id;
    ids
  }

  /** Kills every rostered snake whose id the snapshot does not list. */
  function KillMissing(snakes: seq<Snake>, ids: seq<string>): (r: seq<Snake>)
    ensures |r| == |snakes|
    ensures forall i :: 0 <= i < |snakes| ==>
      r[i] == (if snakes[i].clientId.Some? && snakes[i].clientId.value in ids then snakes[i] else Kill(snakes[i]))
  {
    seq(|snakes|, i requires 0 <= i < |snakes| =>
      if snakes[i].clientId.Some? && snakes[i].clientId.value in ids then snakes[i] else Kill(snakes[i]))
  }

  /** A snapshot `update_state` accepts without raising. */
  predicate Loadable(b: GeneralBoard, st: BoardState)
  {
    && AllResolve(b.width, b.height, st.food)
    && AllResolve(b.width, b.height, st.hazards)
    && Placeable(b.snakes, b.width, b.height, st.snakes)
  }

  /** Snake `s` appears in the snapshot. */
  predicate Listed(s: Snake, st: BoardState)
  {
    s.clientId.Some? && exists k :: 0 <= k < |st.snakes| && st.snakes[k].id == s.clientId.value
  }

  /** `Board.update_state`. */
  function LoadState(b: GeneralBoard, st: BoardState): (r: Result<GeneralBoard, LoadError>)
    requires WellFormed(b) && RosterUnique(b.snakes)
    ensures r.Ok? <==> Loadable(b, st)
    ensures r.Ok? ==> (WellFormed(r.value)
                       && r.value.width == b.width && r.value.height == b.height
                       && SameIds(r.value.snakes, b.snakes) && RosterUnique(r.value.snakes)
                       && LiveHaveHeads(r.value.snakes))
    ensures r.Ok? ==> forall x, y :: 0 <= x < b.width && 0 <= y < b.height ==>
      var c := r.value.cells[x][y];
      && c.x == x && c.y == y
      && (c.food <==> Hits(b.width, b.height, st.food, x, y))
      && (c.hazard <==> Hits(b.width, b.height, st.hazards, x, y))
      && (c.occupant, c.isHead) == Occupancy(b.width, b.height, st.snakes, x, y)
      && c.color.None?
      && c.closestSnakes == Some(ClosestSnakes(r.value.snakes, x, y).0)
      && c.closestDistance == Some(ClosestSnakes(r.value.snakes, x, y).1)
    ensures r.Ok? ==> forall i :: 0 <= i < |b.snakes| ==>
      r.value.snakes[i] == (if Listed(b.snakes[i], st) then Refreshed(b.snakes[i], st.snakes) else Kill(b.snakes[i]))
  {
    var b1 := ClearCells(b);
    match MarkFlags(b1, st.food, FoodFlag)
    case Err(e) => Err(e)
    case Ok(b2) =>
      match MarkFlags(b2, st.hazards, HazardFlag)
      case Err(e) => Err(e)
      case Ok(b3) =>
        match PlaceSnakes(b3, st.snakes)
        case Err(e) => Err(e)
        case Ok(b4) =>
          var b5 := b4.(snakes := KillMissing(b4.snakes, Ids(st.snakes)));
          LoadStateRoster(b, st, b4, b5);
          var r := CalculateClosestSnake(b5);
          FlagGrid(b, st);
          LoadStateCells(b, st, b3, b4, r);
          Ok(r)
  }

  lemma LoadStateRoster(b: GeneralBoard, st: BoardState, b4: GeneralBoard, b5: GeneralBoard)
    requires RosterUnique(b.snakes)
    requires SameIds(b4.snakes, b.snakes)
    requires forall i :: 0 <= i < |b.snakes| ==> b4.snakes[i] == Refreshed(b.snakes[i], st.snakes)
    requires b5 == b4.(snakes := KillMissing(b4.snakes, Ids(st.snakes)))
    ensures SameIds(b5.snakes, b.snakes) && RosterUnique(b5.snakes) && LiveHaveHeads(b5.snakes)
    ensures forall i :: 0 <= i < |b.snakes| ==>
      b5.snakes[i] == (if Listed(b.snakes[i], st) then Refreshed(b.snakes[i], st.snakes) else Kill(b.snakes[i]))
  {
    forall i | 0 <= i < |b.snakes|
      ensures b5.snakes[i] == (if Listed(b.snakes[i], st) then Refreshed(b.snakes[i], st.snakes) else Kill(b.snakes[i]))
    {
      var s := b.snakes[i];
      if Listed(s, st) {
        assert s.clientId.value in Ids(st.snakes);
      } else {
        if s.clientId.Some? {
          assert LastInfoFor(st.snakes, s.clientId.value).None?;
          assert s.clientId.value !in Ids(st.snakes);
        }
      }
    }
    assert SameIds(b5.snakes, b.snakes);
    assert forall i :: 0 <= i < |b5.snakes| ==> b5.snakes[i].clientId == b.snakes[i].clientId;
    forall i | 0 <= i < |b5.snakes| && !b5.snakes[i].isDead
      ensures b5.snakes[i].head.Some?
    {
      var s := b.snakes[i];
      assert Listed(s, st);
      assert LastInfoFor(st.snakes, s.clientId.value).Some?;
    }
  }

  /** The grid after clearing and flagging: food and hazards exactly where
      the snapshot lists them, no snake, no head, no colour. */
  ghost predicate FlaggedGrid(b: GeneralBoard, st: BoardState, g: GeneralBoard)
  {
    && WellFormed(g) && g.width == b.width && g.height == b.height
    && forall x, y :: 0 <= x < b.width && 0 <= y < b.height ==>
      var c := g.cells[x][y];
      && (c.food <==> Hits(b.width, b.height, st.food, x, y))
      && (c.hazard <==> Hits(b.width, b.height, st.hazards, x, y))
      && c.occupant.None? && !c.isHead && c.color.None?
  }

  lemma FlagGrid(b: GeneralBoard, st: BoardState)
    requires WellFormed(b)
    requires AllResolve(b.width, b.height, st.food) && AllResolve(b.width, b.height, st.hazards)
    ensures var b2 := MarkFlags(ClearCells(b), st.food, FoodFlag);
      && b2.Ok?
      && var b3 := MarkFlags(b2.value, st.hazards, HazardFlag);
      && b3.Ok? && FlaggedGrid(b, st, b3.value)
  {
    var b2 := MarkFlags(ClearCells(b), st.food, FoodFlag).value;
    var b3 := MarkFlags(b2, st.hazards, HazardFlag).value;
    forall x, y | 0 <= x < b.width && 0 <= y < b.height
      ensures var c := b3.cells[x][y];
        && (c.food <==> Hits(b.width, b.height, st.food, x, y))
        && (c.hazard <==> Hits(b.width, b.height, st.hazards, x, y))
        && c.occupant.None? && !c.isHead && c.color.None?
    {
      FlaggedCell(b, st, x, y);
    }
  }

  lemma LoadStateCells(b: GeneralBoard, st: BoardState, b3: GeneralBoard, b4: GeneralBoard, r: GeneralBoard)
    requires FlaggedGrid(b, st, b3) && CellsPlaced(b3, b4, st.snakes)
    requires WellFormed(r) && r.width == b.width && r.height == b.height && LiveHaveHeads(r.snakes)
    requires forall x, y :: 0 <= x < r.width && 0 <= y < r.height ==>
      var c, c' := b4.cells[x][y], r.cells[x][y];
      && c'.food == c.food && c'.hazard == c.hazard && c'.occupant == c.occupant
      && c'.isHead == c.isHead && c'.color == c.color
      && c'.closestSnakes == Some(ClosestSnakes(r.snakes, x, y).0)
      && c'.closestDistance == Some(ClosestSnakes(r.snakes, x, y).1)
    ensures forall x, y :: 0 <= x < b.width && 0 <= y < b.height ==>
      var c := r.cells[x][y];
      && c.x == x && c.y == y
      && (c.food <==> Hits(b.width, b.height, st.food, x, y))
      && (c.hazard <==> Hits(b.width, b.height, st.hazards, x, y))
      && (c.occupant, c.isHead) == Occupancy(b.width, b.height, st.snakes, x, y)
      && c.color.None?
      && c.closestSnakes == Some(ClosestSnakes(r.snakes, x, y).0)
      && c.closestDistance == Some(ClosestSnakes(r.snakes, x, y).1)
  {
    forall x, y | 0 <= x < b.width && 0 <= y < b.height
      ensures var c := r.cells[x][y];
        && (c.food <==> Hits(b.width, b.height, st.food, x, y))
        && (c.hazard <==> Hits(b.width, b.height, st.hazards, x, y))
        && (c.occupant, c.isHead) == Occupancy(b.width, b.height, st.snakes, x, y)
        && c.color.None?
    {
      assert b4.cells[x][y] == Placed(b3.cells[x][y], b.width, b.height, st.snakes, x, y);
    }
  }

  /** A square after clearing and flagging: at its own position, food and
      hazard exactly where the snapshot lists them, no snake, no head, no colour. */
  lemma FlaggedCell(b: GeneralBoard, st: BoardState, x: int, y: int)
    requires WellFormed(b)
    requires AllResolve(b.width, b.height, st.food) && AllResolve(b.width, b.height, st.hazards)
    requires 0 <= x < b.width && 0 <= y < b.height
    ensures var b2 := MarkFlags(ClearCells(b), st.food, FoodFlag);
      && b2.Ok?
      && var b3 := MarkFlags(b2.value, st.hazards, HazardFlag);
      && b3.Ok?
      && var c := b3.value.cells[x][y];
      && c.x == x && c.y == y
      && (c.food <==> Hits(b.width, b.height, st.food, x, y))
      && (c.hazard <==> Hits(b.width, b.height, st.hazards, x, y))
      && c.occupant.None? && !c.isHead && c.color.None?
  {
    var b1 := ClearCells(b);
    var b2 := MarkFlags(b1, st.food, FoodFlag).value;
    var b3 := MarkFlags(b2, st.hazards, HazardFlag).value;
    var c1 := b1.cells[x][y];
    assert c1 == NewCell(x, y);
    var c2 := b2.cells[x][y];
    assert c2 == (if Hits(b.width, b.height, st.food, x, y) then SetFlag(c1, FoodFlag) else c1);
    assert b3.cells[x][y] == (if Hits(b.width, b.height, st.hazards, x, y) then SetFlag(c2, HazardFlag) else c2);
  }
}

=== FILE: cell.dfy ===
/** One square of the board (`Cell` in `board.py`). The occupant is the
    client id of the snake lying on the square. */
module Cells {
  import opened Py
  import opened Snakes

  datatype Cell = Cell(
    x: int,
    y: int,
    food: bool,
    hazard: bool,
    occupant: Option<string>,
    isHead: bool,
    color: Option<string>,
    closestSnakes: Option<seq<Snake>>,
    closestDistance: Option<int>)

  /** A new square: no food, no hazard, no snake, no annotations. */
  function NewCell(x: int, y: int): (c: Cell)
    ensures c.x == x && c.y == y
    ensures IsEmpty(c) && !c.isHead
    ensures c.color.None? && c.closestSnakes.None? && c.closestDistance.None?
  {
    Cell(x, y, false, false, None, false, None, None, None)
  }

  /** Safe to enter: no snake and no hazard. Food plays no part. */
  predicate IsSafe(c: Cell)
    ensures IsSafe(c) ==> !IsOccupied(c)
  {
    c.occupant.None? && !c.hazard
  }

  /** No snake, food or hazard: exactly a safe square without food. */
  predicate IsEmpty(c: Cell)
    ensures IsEmpty(c) <==> IsSafe(c) && !c.food
  {
    c.occupant.None? && !c.food && !c.hazard
  }

  /** A food square is never empty. */
  predicate IsFood(c: Cell)
    ensures IsFood(c) ==> !IsEmpty(c)
  {
    c.food
  }

  predicate IsOccupied(c: Cell)
  {
    c.occupant.Some?
  }

  /** An occupied square is neither safe nor empty, whatever its food and
      hazard flags. */
  lemma OccupiedNeitherSafeNorEmpty(c: Cell)
    ensures IsOccupied(c) ==> !IsSafe(c) && !IsEmpty(c)
  {
  }

  /** Forgets which snake lies here, keeping position, food, hazard and
      colour. */
  function ClearSnakeInfo(c: Cell): (r: Cell)
    ensures r.x == c.x && r.y == c.y
    ensures r.food == c.food && r.hazard == c.hazard && r.color == c.color
    ensures !IsOccupied(r) && !r.isHead
    ensures r.closestSnakes.None? && r.closestDistance.None?
    ensures IsSafe(r) <==> !c.hazard
  {
    c.(occupant := None, isHead := false, closestSnakes := None, closestDistance := None)
  }

  /** Resets every flag and annotation, keeping only the position. */
  function Clear(c: Cell): (r: Cell)
    ensures r.x == c.x && r.y == c.y
    ensures IsEmpty(r) && IsSafe(r) && !IsFood(r)
    ensures r == NewCell(c.x, c.y)
  {
    c.(food := false, hazard := false, occupant := None, isHead := false,
       color := None, closestSnakes := None, closestDistance := None)
  }

  /** A field-by-field copy: equal to the original in every field. */
  function Copy(c: Cell): (r: Cell)
    ensures r == c
  {
    Cell(c.x, c.y, c.food, c.hazard, c.occupant, c.isHead, c.color,
         c.closestSnakes, c.closestDistance)
  }

  /** The flag a snapshot list sets on a square. */
  datatype Flag = FoodFlag | HazardFlag

  /** `set_food(True)` or `set_hazard(True)`: the flag is raised, and
      nothing else about the square changes. */
  function SetFlag(c: Cell, f: Flag): (r: Cell)
    ensures r.food == (c.food || f == FoodFlag) && r.hazard == (c.hazard || f == HazardFlag)
    ensures r.x == c.x && r.y == c.y && r.occupant == c.occupant && r.isHead == c.isHead
    ensures r.color == c.color && r.closestSnakes == c.closestSnakes
    ensures r.closestDistance == c.closestDistance
  {
    match f
    case FoodFlag => c.(food := true)
    case HazardFlag => c.(hazard := true)
  }

  /** `set_snake(snake, is_head)`. */
  function SetSnake(c: Cell, id: string, head: bool): (r: Cell)
    ensures r.occupant == Some(id) && r.isHead == head
    ensures r.x == c.x && r.y == c.y && r.food == c.food && r.hazard == c.hazard
    ensures r.color == c.color && r.closestSnakes == c.closestSnakes
    ensures r.closestDistance == c.closestDistance
  {
    c.(occupant := Some(id), isHead := head)
  }

  /** A copy with the snake data dropped shows the same square to a board
      that has not placed its snakes yet. */
  lemma CopyClearSnakeInfo(c: Cell)
    ensures var r := ClearSnakeInfo(Copy(c));
      r.x == c.x && r.y == c.y && r.food == c.food && r.hazard == c.hazard
      && r.color == c.color && r.occupant.None? && !r.isHead
      && r.closestSnakes.None? && r.closestDistance.None?
  {
  }
}

=== FILE: geometry.dfy ===
/** Grid coordinates, the four move directions and Manhattan distance.
    `up` increases y and `right` increases x, the convention used by
    `get_safe_moves` and by the starter move function. */
module Geometry {

  datatype Point = Point(x: int, y: int)

  datatype Direction = Up | Down | Left | Right

  /** The order in which the bot enumerates directions. */
  const Directions: seq<Direction> := [Up, Down, Left, Right]

  /** Position of a direction in `Directions`. */
  function Rank(d: Direction): (r: nat)
    ensures r < |Directions| && Directions[r] == d
  {
    match d
    case Up => 0
    case Down => 1
    case Left => 2
    case Right => 3
  }

  function DeltaX(d: Direction): int
  {
    match d
    case Left => -1
    case Right => 1
    case _ => 0
  }

  function DeltaY(d: Direction): int
  {
    match d
    case Down => -1
    case Up => 1
    case _ => 0
  }

  /** The cell one move away from `p` in direction `d`. */
  function Step(p: Point, d: Direction): (q: Point)
    ensures Manhattan(p, q) == 1
    ensures q != p
  {
    Point(p.x + DeltaX(d), p.y + DeltaY(d))
  }

  function Abs(n: int): nat
  {
    if n < 0 then -n else n
  }

  function Manhattan(p: Point, q: Point): (r: nat)
    ensures r == 0 <==> p == q
  {
    Abs(p.x - q.x) + Abs(p.y - q.y)
  }

  /** One step in `d` brings `head` one square closer to `target`. */
  predicate Approaches(head: Point, target: Point, d: Direction)
  {
    Manhattan(Step(head, d), target) + 1 == Manhattan(head, target)
  }

  /** Distinct directions lead to distinct neighbours. */
  lemma StepInjective(p: Point, d: Direction, e: Direction)
    ensures Step(p, d) == Step(p, e) ==> d == e
  {
  }
}

=== FILE: py.dfy ===
/** Python runtime values that the bot's logic relies on: `None`, a value
    that may raise instead of returning, `math.inf`, and list indexing with
    negative indices. */
module Py {

  /** A Python value that may be `None`. */
  datatype Option<+T> = None | Some(value: T)

  /** The outcome of a Python call that either returns a value or raises. */
  datatype Result<+T, +E> = Ok(value: T) | Err(error: E)

  /** A distance that may be `math.inf`. */
  datatype Extended = Fin(n: nat) | Inf

  /** The position that `xs[i]` reads in a Python list of length `n`:
      a non-negative index reads itself, an index in `[-n, 0)` counts from
      the end, and anything else raises `IndexError` (`None` here). */
  function PyIndex(i: int, n: nat): (r: Option<nat>)
    ensures r.Some? <==> 0 <= i + n && i < n
    ensures r.Some? ==> r.value < n && (r.value - i) % n == 0
    ensures 0 <= i < n ==> r == Some(i)
  {
    if 0 <= i < n then Some(i)
    else if 0 <= i + n && i < 0 then Some(i + n)
    else None
  }
}

=== FILE: snake.dfy ===
/** The per-snake record of `snake.py`: the state copied from each turn's
    snapshot, `kill`, and the Manhattan distance from the head. */
module Snakes {
  import opened Py
  import opened Geometry

  /** A snake as the bot tracks it. Fields that Python leaves unset until
      the first snapshot arrives are `None`. */
  datatype Snake = Snake(
    clientId: Option<string>,
    isEnemy: bool,
    isDead: bool,
    health: Option<int>,
    length: Option<int>,
    body: Option<seq<Point>>,
    head: Option<Point>,
    color: Option<string>)

  /** One entry of the snapshot's snake list. */
  datatype SnakeInfo = SnakeInfo(
    id: string,
    health: int,
    length: int,
    body: seq<Point>,
    head: Point,
    color: string)

  /** A freshly constructed snake: no id yet, an enemy, alive. */
  function NewSnake(): (s: Snake)
    ensures s.clientId.None? && s.isEnemy && !s.isDead
    ensures s.head.None? && s.body.None?
  {
    Snake(None, true, false, None, None, None, None, None)
  }

  /** Copies health, length, body, head and colour from the snapshot; the
      id, the team classification and the death flag are left alone, so a
      killed snake is not revived by a later snapshot. */
  function UpdateState(s: Snake, info: SnakeInfo): (r: Snake)
    ensures r.health == Some(info.health) && r.length == Some(info.length)
    ensures r.body == Some(info.body) && r.head == Some(info.head)
    ensures r.color == Some(info.color)
    ensures r.clientId == s.clientId && r.isEnemy == s.isEnemy && r.isDead == s.isDead
  {
    s.(health := Some(info.health), length := Some(info.length),
       body := Some(info.body), head := Some(info.head), color := Some(info.color))
  }

  /** Marks the snake dead and empties its body. */
  function Kill(s: Snake): (r: Snake)
    ensures r.isDead
    ensures r.length == Some(0) && r.health == Some(0)
    ensures r.head.None? && r.body.None?
    ensures r.clientId == s.clientId && r.isEnemy == s.isEnemy && r.color == s.color
  {
    s.(isDead := true, length := Some(0), health := Some(0), head := None, body := None)
  }

  /** Manhattan distance from the head to `(x, y)`; the source reads the
      head, so a snake without one cannot be asked. */
  function DistanceTo(s: Snake, x: int, y: int): (r: nat)
    requires s.head.Some?
    ensures r == 0 <==> s.head.value == Point(x, y)
  {
    Manhattan(s.head.value, Point(x, y))
  }

  /** Only the latest snapshot matters: a second update overrides the first
      entirely. */
  lemma UpdateStateLastWins(s: Snake, a: SnakeInfo, b: SnakeInfo)
    ensures UpdateState(UpdateState(s, a), b) == UpdateState(s, b)
  {
  }

  /** A killed snake stays dead through later snapshots. */
  lemma KilledStaysDead(s: Snake, info: SnakeInfo)
    ensures UpdateState(Kill(s), info).isDead
    ensures Kill(Kill(s)) == Kill(s)
  {
  }
}

=== FILE: snake_moves.dfy ===
/** The board queries a controllable snake makes in `snake.py`: the moves
    that do not step onto an unsafe square, and the nearest food. */
module SnakeMoves {
  import opened Py
  import opened Geometry
  import opened Snakes
  import opened Cells
  import opened Boards

  /** Whether moving from `h` in direction `d` lands on a safe square. */
  predicate SafeStep(b: GeneralBoard, h: Point, d: Direction)
    requires WellFormed(b)
  {
    Boards.IsSafe(b, Step(h, d).x, Step(h, d).y)
  }

  /** The directions of `ds`, in order, whose next square from `h` is safe. */
  function KeepSafe(b: GeneralBoard, h: Point, ds: seq<Direction>): (r: seq<Direction>)
    requires WellFormed(b)
    requires forall i, j :: 0 <= i < j < |ds| ==> Rank(ds[i]) < Rank(ds[j])
    ensures forall d :: d in r <==> d in ds && SafeStep(b, h, d)
    ensures forall i, j :: 0 <= i < j < |r| ==> Rank(r[i]) < Rank(r[j])
    ensures |r| <= |ds|
  {
    if |ds| == 0 then []
    else
      var rest := KeepSafe(b, h, ds[1..]);
      RankedTail(ds);
      if SafeStep(b, h, ds[0]) then [ds[0]] + rest else rest
  }

  /** In a rank-increasing list the first direction outranks none of the rest. */
  lemma RankedTail(ds: seq<Direction>)
    requires |ds| > 0
    requires forall i, j :: 0 <= i < j < |ds| ==> Rank(ds[i]) < Rank(ds[j])
    ensures forall d :: d in ds[1..] ==> Rank(ds[0]) < Rank(d)
  {
    forall d | d in ds[1..] ensures Rank(ds[0]) < Rank(d) {
      var j :| 0 <= j < |ds[1..]| && ds[1..][j] == d;
      assert ds[j + 1] == d;
    }
  }

  /** `get_safe_moves`: a dead snake has none; otherwise, in the order up,
      down, left, right, every direction whose next square is safe. */
  function SafeMoves(s: Snake, b: GeneralBoard): (r: seq<Direction>)
    requires WellFormed(b)
    requires s.isDead || s.head.Some?
    ensures s.isDead ==> r == []
    ensures !s.isDead ==> forall d :: d in r <==> SafeStep(b, s.head.value, d)
    ensures forall i, j :: 0 <= i < j < |r| ==> Rank(r[i]) < Rank(r[j])
    ensures |r| <= |Directions|
  {
    if s.isDead then []
    else KeepSafe(b, s.head.value, Directions)
  }

  /** A rank-increasing list never repeats a direction. */
  lemma SafeMovesDistinct(s: Snake, b: GeneralBoard)
    requires WellFormed(b) && (s.isDead || s.head.Some?)
    ensures var r := SafeMoves(s, b);
      forall i, j :: 0 <= i < j < |r| ==> r[i] != r[j]
  {
  }

  /** Result of `get_closest_food_pos`: the food square chosen and its
      distance, or no square and an infinite distance. */
  datatype ClosestFood = ClosestFood(cell: Option<Cell>, distance: Extended)

  /** The Manhattan distance from `h` to square `c`. */
  function FoodDistance(h: Point, c: Cell): nat
  {
    Manhattan(h, Point(c.x, c.y))
  }

  /** `n < e` with `math.inf` above every number. */
  predicate Below(n: nat, e: Extended)
  {
    e.Inf? || n < e.n
  }

  /** `cells[k]` is a food square at the least distance from `h`, and every
      food square before it is strictly farther. */
  predicate NearestFoodAt(h: Point, cells: seq<Cell>, k: int)
  {
    && 0 <= k < |cells| && cells[k].food
    && (forall j :: 0 <= j < |cells| && cells[j].food ==> FoodDistance(h, cells[k]) <= FoodDistance(h, cells[j]))
    && (forall j :: 0 <= j < k && cells[j].food ==> FoodDistance(h, cells[k]) < FoodDistance(h, cells[j]))
  }

  /** What the scan of `get_closest_food_pos` knows after visiting the
      squares `seen`: no square chosen exactly when none was food, and
      otherwise the chosen one is the first nearest food square. */
  predicate ScanState(hd: Option<Point>, seen: seq<Cell>, best: Option<Cell>, bestDistance: Extended, k: int)
  {
    && (best.None? <==> forall j :: 0 <= j < |seen| ==> !seen[j].food)
    && (best.None? ==> bestDistance == Inf)
    && (best.Some? ==> (hd.Some? && NearestFoodAt(hd.value, seen, k)
      && seen[k] == best.value && bestDistance == Fin(FoodDistance(hd.value, best.value))))
  }

  /** A square that is not food, or food no nearer than the chosen one,
      leaves the choice as it is. */
  lemma ScanKeeps(hd: Option<Point>, seen: seq<Cell>, best: Option<Cell>, bestDistance: Extended, k: int, cell: Cell)
    requires ScanState(hd, seen, best, bestDistance, k)
    requires cell.food ==> hd.Some? && !Below(FoodDistance(hd.value, cell), bestDistance)
    ensures ScanState(hd, seen + [cell], best, bestDistance, k)
  {
    var t := seen + [cell];
    assert forall j :: 0 <= j < |seen| ==> t[j] == seen[j];
  }

  /** Food strictly nearer than the chosen square (or the first food at
      all) becomes the new choice. */
  lemma ScanTakes(h: Point, seen: seq<Cell>, best: Option<Cell>, bestDistance: Extended, k: int, cell: Cell)
    requires ScanState(Some(h), seen, best, bestDistance, k)
    requires cell.food && Below(FoodDistance(h, cell), bestDistance)
    ensures ScanState(Some(h), seen + [cell], Some(cell), Fin(FoodDistance(h, cell)), |seen|)
  {
    var t, n := seen + [cell], |seen|;
    forall j | 0 <= j < n && t[j].food
      ensures FoodDistance(h, cell) < FoodDistance(h, t[j])
    {
      assert t[j] == seen[j];
      assert best.Some? && FoodDistance(h, seen[k]) <= FoodDistance(h, seen[j]);
    }
    assert NearestFoodAt(h, t, n);
  }

  /** The inner loop of `get_closest_food_pos`: one column of the grid,
      bottom to top, continuing the scan state of the squares before it. */
  method ScanColumn(hd: Option<Point>, row: seq<Cell>, best0: Option<Cell>, bestDistance0: Extended,
                    ghost seen: seq<Cell>, ghost k0: int)
    returns (best: Option<Cell>, bestDistance: Extended, ghost k: int)
    requires ScanState(hd, seen, best0, bestDistance0, k0)
    requires forall y :: 0 <= y < |row| && row[y].food ==> hd.Some?
    ensures ScanState(hd, seen + row, best, bestDistance, k)
    ensures best0.Some? ==> best.Some?
  {
    best, bestDistance, k := best0, bestDistance0, k0;
    var y := 0;
    assert seen + row[..0] == seen;
    while y < |row|
      invariant 0 <= y <= |row|
      invariant ScanState(hd, seen + row[..y], best, bestDistance, k)
      invariant best0.Some? ==> best.Some?
    {
      var cell := row[y];
      if IsFood(cell) {
        var d := FoodDistance(hd.value, cell);
        if Below(d, bestDistance) {
          ScanTakes(hd.value, seen + row[..y], best, bestDistance, k, cell);
          best := Some(cell);
          bestDistance := Fin(d);
          k := |seen + row[..y]|;
        } else {
          ScanKeeps(hd, seen + row[..y], best, bestDistance, k, cell);
        }
      } else {
        ScanKeeps(hd, seen + row[..y], best, bestDistance, k, cell);
      }
      assert seen + row[..y + 1] == seen + row[..y] + [cell];
      y := y + 1;
    }
    assert row[..y] == row;
  }

  /** What `get_closest_food_pos` raises: subscripting the head of a snake
      that has none (`TypeError`). */
  datatype FoodError = NoHead

  /** `get_closest_food_pos`: scans the grid column by column and keeps the
      first food square at the least Manhattan distance from the head. The
      head is only read once food has been found, so a headless snake
      raises exactly when the grid holds food. */
  method ClosestFoodPos(s: Snake, b: GeneralBoard) returns (r: Result<ClosestFood, FoodError>)
    requires WellFormed(b)
    ensures r.Err? <==> s.head.None? && exists j :: 0 <= j < |AllCells(b)| && IsFood(AllCells(b)[j])
    ensures r.Ok? ==> (r.value.cell.None? <==> forall j :: 0 <= j < |AllCells(b)| ==> !IsFood(AllCells(b)[j]))
    ensures r.Ok? && r.value.cell.None? ==> r.value.distance == Inf
    ensures r.Ok? && r.value.cell.Some? ==> (s.head.Some? && exists k :: (NearestFoodAt(s.head.value, AllCells(b), k)
      && AllCells(b)[k] == r.value.cell.value && r.value.distance == Fin(FoodDistance(s.head.value, r.value.cell.value))))
  {
    if s.head.None? {
      if exists j :: 0 <= j < |AllCells(b)| && IsFood(AllCells(b)[j]) {
        return Err(NoHead);
      }
      return Ok(ClosestFood(None, Inf));
    }
    var best: Option<Cell> := None;
    var bestDistance: Extended := Inf;
    ghost var k: int := -1;
    var x := 0;
    while x < |b.cells|
      invariant 0 <= x <= |b.cells|
      invariant ScanState(s.head, Flatten(b.cells[..x]), best, bestDistance, k)
    {
      best, bestDistance, k := ScanColumn(s.head, b.cells[x], best, bestDistance, Flatten(b.cells[..x]), k);
      assert b.cells[..x + 1][..x] == b.cells[..x];
      x := x + 1;
    }
    assert b.cells[..x] == b.cells;
    assert ScanState(s.head, AllCells(b), best, bestDistance, k);
    r := Ok(ClosestFood(best, bestDistance));
    assert best.Some? ==> NearestFoodAt(s.head.value, AllCells(b), k);
  }
}

=== FILE: starter.dfy ===
/** The stand-alone move function of `main.py`: it starts with every
    direction allowed, rules out the neck, the walls and the squares next to
    the head that the body occupies, then takes a random allowed direction
    unless one of them heads towards the first food item. */
module Starter {
  import opened Py
  import opened Geometry

  /** Which of the four directions are still allowed (`is_move_safe`). */
  datatype Safety = Safety(up: bool, down: bool, left: bool, right: bool)

  const AllSafe: Safety := Safety(true, true, true, true)

  predicate Allows(s: Safety, d: Direction)
  {
    match d
    case Up => s.up
    case Down => s.down
    case Left => s.left
    case Right => s.right
  }

  /** Rules out one direction and leaves the others as they were. */
  function Forbid(s: Safety, d: Direction): (r: Safety)
    ensures !Allows(r, d)
    ensures forall e :: e != d ==> (Allows(r, e) <==> Allows(s, e))
  {
    match d
    case Up => s.(up := false)
    case Down => s.(down := false)
    case Left => s.(left := false)
    case Right => s.(right := false)
  }

  /** The neck check: an `if`/`elif` chain that rules out at most the one
      direction leading back onto the neck. */
  function NeckFilter(s: Safety, head: Point, neck: Point): (r: Safety)
    ensures forall d :: Allows(r, d) ==> Allows(s, d)
    ensures Manhattan(head, neck) <= 1 ==>
      forall d :: Allows(r, d) <==> Allows(s, d) && Step(head, d) != neck
  {
    if neck.x < head.x then Forbid(s, Left)
    else if neck.x > head.x then Forbid(s, Right)
    else if neck.y < head.y then Forbid(s, Down)
    else if neck.y > head.y then Forbid(s, Up)
    else s
  }

  /** The square lies on a `w` by `h` board. */
  predicate OnBoard(p: Point, w: int, h: int)
  {
    0 <= p.x < w && 0 <= p.y < h
  }

  /** How the wall check is written: the source's `if`/`elif` pairs, or two
      independent tests per axis. */
  datatype WallCheck = ElifWalls | IndependentWalls

  /** Whether the wall check leaves direction `d` allowed, one direction
      at a time: the `elif` pairs test the far edge only when the head is
      not on the zero line of that axis. */
  predicate WallOk(head: Point, w: int, h: int, check: WallCheck, d: Direction)
  {
    match d
    case Left => head.x != 0
    case Down => head.y != 0
    case Right => head.x != w - 1 || (check == ElifWalls && head.x == 0)
    case Up => head.y != h - 1 || (check == ElifWalls && head.y == 0)
  }

  /** The wall check. With independent tests, and with the source's `elif`
      pairs on a board at least two squares wide and tall, a direction stays
      allowed exactly when it keeps the head on the board. */
  function WallFilter(s: Safety, head: Point, w: int, h: int, check: WallCheck): (r: Safety)
    ensures forall d :: Allows(r, d) <==> Allows(s, d) && WallOk(head, w, h, check, d)
    ensures OnBoard(head, w, h) && (check == IndependentWalls || (w >= 2 && h >= 2)) ==>
      forall d :: Allows(r, d) <==> Allows(s, d) && OnBoard(Step(head, d), w, h)
  {
    match check
    case ElifWalls =>
      var s1 := if head.x == 0 then Forbid(s, Left)
                else if head.x == w - 1 then Forbid(s, Right)
                else s;
      if head.y == 0 then Forbid(s1, Down)
      else if head.y == h - 1 then Forbid(s1, Up)
      else s1
    case IndependentWalls =>
      var s1 := if head.x == 0 then Forbid(s, Left) else s;
      var s2 := if head.x == w - 1 then Forbid(s1, Right) else s1;
      var s3 := if head.y == 0 then Forbid(s2, Down) else s2;
      if head.y == h - 1 then Forbid(s3, Up) else s3
  }

  /** What the source's `elif` wall check rules out on any board: left at
      x = 0 and down at y = 0; right at x = w - 1 and up at y = h - 1 only
      when the head is not also at 0 on that axis. */
  lemma ElifWallsExclude(s: Safety, head: Point, w: int, h: int)
    ensures var r := WallFilter(s, head, w, h, ElifWalls);
      && (head.x == 0 ==> !Allows(r, Left))
      && (head.y == 0 ==> !Allows(r, Down))
      && (head.x != 0 && head.x == w - 1 ==> !Allows(r, Right))
      && (head.y != 0 && head.y == h - 1 ==> !Allows(r, Up))
      && (head.x == 0 ==> (Allows(r, Right) <==> Allows(s, Right)))
      && (head.y == 0 ==> (Allows(r, Up) <==> Allows(s, Up)))
  {
  }

  /** One body segment: rules out the direction whose next square it
      occupies, if any. */
  function SegmentFilter(s: Safety, head: Point, part: Point): (r: Safety)
    ensures forall d :: Allows(r, d) <==> Allows(s, d) && Step(head, d) != part
  {
    if part.x == head.x + 1 && part.y == head.y then Forbid(s, Right)
    else if part.x == head.x - 1 && part.y == head.y then Forbid(s, Left)
    else if part.x == head.x && part.y == head.y + 1 then Forbid(s, Up)
    else if part.x == head.x && part.y == head.y - 1 then Forbid(s, Down)
    else s
  }

  /** The self-collision loop over the whole body. */
  function BodyFilter(s: Safety, head: Point, body: seq<Point>): (r: Safety)
    ensures forall d :: Allows(r, d) <==> Allows(s, d) && Step(head, d) !in body
    decreases |body|
  {
    if |body| == 0 then s
    else
      var rest := BodyFilter(SegmentFilter(s, head, body[0]), head, body[1..]);
      assert forall p :: p in body <==> p == body[0] || p in body[1..];
      rest
  }

  /** Every check applied to a body of at least two segments. */
  function Screen(body: seq<Point>, w: int, h: int, check: WallCheck): (r: Safety)
    requires |body| >= 2
    ensures forall d :: Allows(r, d) ==> Step(body[0], d) !in body
    ensures Manhattan(body[0], body[1]) <= 1 ==>
      forall d :: Allows(r, d) <==> Step(body[0], d) !in body && WallOk(body[0], w, h, check, d)
  {
    ScreenAllows(body, w, h, check);
    BodyFilter(WallFilter(NeckFilter(AllSafe, body[0], body[1]), body[0], w, h, check), body[0], body)
  }

  /** The three checks combined, one direction at a time. */
  lemma ScreenAllows(body: seq<Point>, w: int, h: int, check: WallCheck)
    requires |body| >= 2
    ensures var head := body[0];
      var r := BodyFilter(WallFilter(NeckFilter(AllSafe, head, body[1]), head, w, h, check), head, body);
      && (forall d :: Allows(r, d) ==> Step(head, d) !in body)
      && (Manhattan(head, body[1]) <= 1 ==>
            forall d :: Allows(r, d) <==> Step(head, d) !in body && WallOk(head, w, h, check, d))
  {
    var head := body[0];
    var neck := NeckFilter(AllSafe, head, body[1]);
    var walls := WallFilter(neck, head, w, h, check);
    var r := BodyFilter(walls, head, body);
    assert body[1] in body;
    forall d
      ensures Allows(r, d) <==> Allows(neck, d) && WallOk(head, w, h, check, d) && Step(head, d) !in body
    {
    }
    if Manhattan(head, body[1]) <= 1 {
      forall d
        ensures Allows(r, d) <==> Step(head, d) !in body && WallOk(head, w, h, check, d)
      {
        assert Allows(neck, d) <==> Step(head, d) != body[1];
      }
    }
  }

  /** The allowed directions in the order the dictionary lists them: up,
      down, left, right. */
  function SafeList(s: Safety): (r: seq<Direction>)
    ensures forall d :: d in r <==> Allows(s, d)
    ensures forall i, j :: 0 <= i < j < |r| ==> Rank(r[i]) < Rank(r[j])
  {
    (if s.up then [Up] else []) + (if s.down then [Down] else [])
    + (if s.left then [Left] else []) + (if s.right then [Right] else [])
  }

  /** One step in `d` shrinks the coordinate difference to `target` on the
      axis of `d`. */
  predicate Toward(head: Point, target: Point, d: Direction)
  {
    match d
    case Right => target.x > head.x
    case Left => target.x < head.x
    case Up => target.y > head.y
    case Down => target.y < head.y
  }

  /** A step approaches the target exactly when it moves towards it along
      its own axis. */
  lemma ApproachesToward(head: Point, target: Point)
    ensures forall d :: Approaches(head, target, d) <==> Toward(head, target, d)
  {
    forall d ensures Approaches(head, target, d) <==> Toward(head, target, d) {
      var q := Step(head, d);
      assert Manhattan(q, target) == Abs(head.x + DeltaX(d) - target.x) + Abs(head.y + DeltaY(d) - target.y);
    }
  }

  /** Where a direction stands in the food preference: right, left, up,
      down. */
  function FoodRank(d: Direction): (r: nat)
    ensures r < 4
  {
    match d
    case Right => 0
    case Left => 1
    case Up => 2
    case Down => 3
  }

  /** The food preference: the first of right, left, up, down that is
      allowed and heads towards the food, else the randomly chosen move. */
  function FoodPreference(s: Safety, head: Point, food: Point, fallback: Direction): (r: Direction)
    ensures (forall d :: Allows(s, d) ==> !Approaches(head, food, d)) ==> r == fallback
    ensures (exists d :: Allows(s, d) && Approaches(head, food, d)) ==>
      && Allows(s, r) && Approaches(head, food, r)
      && forall d :: Allows(s, d) && Approaches(head, food, d) ==> FoodRank(r) <= FoodRank(d)
  {
    ApproachesToward(head, food);
    assert Allows(s, Right) == s.right && Allows(s, Left) == s.left;
    assert Allows(s, Up) == s.up && Allows(s, Down) == s.down;
    if food.x > head.x && s.right then Right
    else if food.x < head.x && s.left then Left
    else if food.y > head.y && s.up then Up
    else if food.y < head.y && s.down then Down
    else fallback
  }

  /** What indexing a missing list element raises. */
  datatype StarterError = IndexError

  /** `move`: "down" when nothing is allowed; otherwise the allowed move
      picked by `random.choice` (the index `choice`), overridden by a move
      towards the first food item. A body shorter than two segments, and an
      empty food list once some move is allowed, raise. */
  function StarterMove(body: seq<Point>, w: int, h: int, food: seq<Point>, choice: nat, check: WallCheck)
    : (r: Result<Direction, StarterError>)
    ensures |body| < 2 ==> r.Err?
    ensures |body| >= 2 && SafeList(Screen(body, w, h, check)) == [] ==> r == Ok(Down)
    ensures |body| >= 2 && SafeList(Screen(body, w, h, check)) != [] ==> (r.Ok? <==> food != [])
    ensures r.Ok? && |body| >= 2 && SafeList(Screen(body, w, h, check)) != [] ==>
      r.value in SafeList(Screen(body, w, h, check))
  {
    if |body| < 2 then Err(IndexError)
    else
      var s := Screen(body, w, h, check);
      var safe := SafeList(s);
      if |safe| == 0 then Ok(Down)
      else if |food| == 0 then Err(IndexError)
      else Ok(FoodPreference(s, body[0], food[0], safe[choice % |safe|]))
  }

  /** When some move is allowed, the move made is allowed and does not run
      into the body; when an allowed move heads towards the food, the move
      made is the first such one in the order right, left, up, down, and
      otherwise it is the random pick. */
  lemma StarterMoveChoice(body: seq<Point>, w: int, h: int, food: seq<Point>, choice: nat, check: WallCheck)
    requires |body| >= 2 && food != []
    requires SafeList(Screen(body, w, h, check)) != []
    ensures var safe, r := SafeList(Screen(body, w, h, check)), StarterMove(body, w, h, food, choice, check);
      && r.Ok? && r.value in safe
      && Step(body[0], r.value) !in body
      && ((forall d :: d in safe ==> !Approaches(body[0], food[0], d)) ==> r.value == safe[choice % |safe|])
      && ((exists d :: d in safe && Approaches(body[0], food[0], d)) ==>
            && Approaches(body[0], food[0], r.value)
            && forall d :: d in safe && Approaches(body[0], food[0], d) ==> FoodRank(r.value) <= FoodRank(d))
  {
  }

  /** With independent wall tests, a move picked from a non-empty allowed
      set never leaves the board. */
  lemma BoundedMoveStaysOnBoard(body: seq<Point>, w: int, h: int, food: seq<Point>, choice: nat)
    requires |body| >= 2 && OnBoard(body[0], w, h)
    requires SafeList(Screen(body, w, h, IndependentWalls)) != []
    requires StarterMove(body, w, h, food, choice, IndependentWalls).Ok?
    ensures OnBoard(Step(body[0], StarterMove(body, w, h, food, choice, IndependentWalls).value), w, h)
  {
    var d := StarterMove(body, w, h, food, choice, IndependentWalls).value;
    assert Allows(Screen(body, w, h, IndependentWalls), d);
    assert WallOk(body[0], w, h, IndependentWalls, d);
    assert Allows(WallFilter(AllSafe, body[0], w, h, IndependentWalls), d);
  }

  /** On boards at least two squares wide and tall the two wall checks
      filter any safety record the same way. */
  lemma WallChecksAgree(s: Safety, head: Point, w: int, h: int)
    requires OnBoard(head, w, h) && w >= 2 && h >= 2
    ensures WallFilter(s, head, w, h, ElifWalls) == WallFilter(s, head, w, h, IndependentWalls)
  {
    var a := WallFilter(s, head, w, h, ElifWalls);
    var b := WallFilter(s, head, w, h, IndependentWalls);
    assert a.up == b.up by { assert Allows(a, Up) == Allows(b, Up); }
    assert a.down == b.down by { assert Allows(a, Down) == Allows(b, Down); }
    assert a.left == b.left by { assert Allows(a, Left) == Allows(b, Left); }
    assert a.right == b.right by { assert Allows(a, Right) == Allows(b, Right); }
  }

  /** On boards at least two squares wide and tall the `elif` wall check
      rules out exactly what the independent one does. */
  lemma ElifWallsAgreeOnWideBoards(body: seq<Point>, w: int, h: int, food: seq<Point>, choice: nat)
    requires |body| >= 2 && OnBoard(body[0], w, h) && w >= 2 && h >= 2
    ensures StarterMove(body, w, h, food, choice, ElifWalls) == StarterMove(body, w, h, food, choice, IndependentWalls)
  {
    assert Screen(body, w, h, ElifWalls) == Screen(body, w, h, IndependentWalls) by {
      WallChecksAgree(NeckFilter(AllSafe, body[0], body[1]), body[0], w, h);
    }
  }

  /** As written, the `elif` wall check lets a snake on a board one square
      wide step off its right edge: the head at x = 0 is also at x = w - 1,
      and only the first test runs. Here the head is in the top corner of
      any such board, its neck below it, the food at the bottom. */
  lemma ElifWallsLeaveNarrowBoard(h: int)
    requires h >= 2
    ensures var body := [Point(0, h - 1), Point(0, h - 2)];
      && StarterMove(body, 1, h, [Point(0, 0)], 0, ElifWalls) == Ok(Right)
      && OnBoard(body[0], 1, h)
      && !OnBoard(Step(body[0], Right), 1, h)
  {
    var body := [Point(0, h - 1), Point(0, h - 2)];
    var head := body[0];
    var n := NeckFilter(AllSafe, head, body[1]);
    assert n == Safety(true, false, true, true);
    var w := WallFilter(n, head, 1, h, ElifWalls);
    assert w == Safety(false, false, false, true);
    var s := BodyFilter(w, head, body);
    assert Allows(s, Right) by {
      assert Step(head, Right) == Point(1, h - 1);
    }
    assert s == w;
    assert SafeList(s) == [Right];
  }
}

=== FILE: team.dfy ===
/** The two-snake team of `snakeduo.py`: it loads each turn's snapshot once,
    picks a move per snake once per turn, hands the moves out, and runs the
    end-of-game hook once both snakes have finished. */
module Team {
  import opened Py
  import opened Geometry
  import opened Snakes
  import opened Boards
  import opened BoardLoad
  import opened SnakeMoves

  /** A controllable snake: the id its requests are routed by, and its own
      snake record (filled from the snapshot entry carrying its client id). */
  datatype Member = Member(route: string, snake: Snake)

  /** A newly constructed controllable snake: not an enemy, no client id. */
  function NewMember(route: string): (m: Member)
    ensures m.route == route && !m.snake.isEnemy && !m.snake.isDead
    ensures m.snake.clientId.None?
  {
    Member(route, NewSnake().(isEnemy := false))
  }

  /** One turn's request body. */
  datatype GameState = GameState(turn: int, board: BoardState)

  /** What the team's calls raise: the board was never created, a live
      member has no head yet, or the snapshot could not be loaded. */
  datatype TeamError = NoBoard | MissingHead | Load(error: LoadError)

  datatype Duo = Duo(
    snake1: Member,
    snake2: Member,
    turn: int,
    calculatedTurn: int,
    board: Option<GeneralBoard>,
    history: seq<GeneralBoard>,
    move1: Option<Direction>,
    move2: Option<Direction>,
    ended1: bool,
    ended2: bool)

  /** The two members are distinct snakes, and the board, once created, is
      a well-formed grid with an id-unique roster. */
  ghost predicate Valid(t: Duo)
  {
    && t.snake1.route != t.snake2.route
    && (t.board.Some? ==> WellFormed(t.board.value) && RosterUnique(t.board.value.snakes))
  }

  /** A new team: no turn seen, nothing computed, nobody finished. */
  function NewDuo(m1: Member, m2: Member): (t: Duo)
    requires m1.route != m2.route
    ensures Valid(t)
    ensures t.snake1 == m1 && t.snake2 == m2
    ensures t.turn == -1 && t.calculatedTurn == t.turn && t.board.None? && t.history == []
    ensures t.move1.None? && t.move2.None?
    ensures !t.ended1 && !t.ended2
  {
    Duo(m1, m2, -1, -1, None, [], None, None, false, false)
  }

  /** `snakes_initialized`: both members know their client id. */
  predicate SnakesInitialized(t: Duo)
  {
    t.snake1.snake.clientId != None && t.snake2.snake.clientId != None
  }

  /** `initialize_team`: does nothing until both members know their id;
      then builds the board from the snapshot (its roster is what
      `create_snakes` produces) and records it. */
  function InitializeTeam(t: Duo, gs: GameState, roster: seq<Snake>): (r: Result<Duo, TeamError>)
    requires Valid(t) && RosterUnique(roster)
    ensures !SnakesInitialized(t) ==> r == Ok(t)
    ensures SnakesInitialized(t) ==>
      (r.Ok? <==> Loadable(NewBoard(gs.board.width, gs.board.height, roster), gs.board))
    ensures r.Ok? ==> Valid(r.value)
    ensures r.Ok? && SnakesInitialized(t) ==>
      && r.value.turn == gs.turn
      && r.value.board == Some(LoadState(NewBoard(gs.board.width, gs.board.height, roster), gs.board).value)
      && r.value.board.value.width == gs.board.width && r.value.board.value.height == gs.board.height
      && r.value.history == t.history + [r.value.board.value]
    ensures r.Ok? ==> (r.value.snake1 == t.snake1 && r.value.snake2 == t.snake2
      && r.value.calculatedTurn == t.calculatedTurn
      && r.value.move1 == t.move1 && r.value.move2 == t.move2
      && r.value.ended1 == t.ended1 && r.value.ended2 == t.ended2)
  {
    if !SnakesInitialized(t) then Ok(t)
    else
      match LoadState(NewBoard(gs.board.width, gs.board.height, roster), gs.board)
      case Err(e) => Err(Load(e))
      case Ok(b) => Ok(t.(turn := gs.turn, board := Some(b), history := t.history + [b]))
  }

  /** The first snapshot entry for client id `id`. */
  function FirstInfoFor(infos: seq<SnakeInfo>, id: string): (r: Option<SnakeInfo>)
    ensures r.None? <==> forall k :: 0 <= k < |infos| ==> infos[k].id != id
    ensures r.Some? ==> exists k :: (0 <= k < |infos| && infos[k] == r.value && r.value.id == id
      && forall j :: 0 <= j < k ==> infos[j].id != id)
  {
    if |infos| == 0 then None
    else if infos[0].id == id then Some(infos[0])
    else
      var rest := FirstInfoFor(infos[1..], id);
      assert forall j :: 0 <= j < |infos| - 1 ==> infos[1..][j] == infos[j + 1];
      rest
  }

  /** A member's own record, refreshed from the first snapshot entry that
      carries its client id. */
  function RefreshMember(m: Member, infos: seq<SnakeInfo>): (r: Member)
    ensures r.route == m.route && r.snake.clientId == m.snake.clientId
    ensures r.snake.isDead == m.snake.isDead
    ensures (m.snake.clientId.Some? && exists k :: 0 <= k < |infos| && infos[k].id == m.snake.clientId.value)
      ==> r.snake.head.Some?
    ensures m.snake.clientId.Some? && FirstInfoFor(infos, m.snake.clientId.value).Some? ==>
      r.snake == Snakes.UpdateState(m.snake, FirstInfoFor(infos, m.snake.clientId.value).value)
    ensures m.snake.clientId.None? || FirstInfoFor(infos, m.snake.clientId.value).None? ==> r == m
  {
    if m.snake.clientId.None? then m
    else match FirstInfoFor(infos, m.snake.clientId.value)
      case None => m
      case Some(info) => m.(snake := Snakes.UpdateState(m.snake, info))
  }

  /** The turn guard of `update_state`. */
  predicate Accepts(t: Duo, gs: GameState)
  {
    gs.turn > t.turn && SnakesInitialized(t)
  }

  /** `update_state`: a snapshot is taken only when the team is initialized
      and its turn is strictly later than the last one taken. */
  function UpdateState(t: Duo, gs: GameState): (r: Result<Duo, TeamError>)
    requires Valid(t)
    ensures !Accepts(t, gs) ==> r == Ok(t)
    ensures Accepts(t, gs) ==> (r.Ok? <==> t.board.Some? && Loadable(t.board.value, gs.board))
    ensures r.Ok? ==> Valid(r.value) && r.value.turn >= t.turn
    ensures r.Ok? && Accepts(t, gs) ==> (r.value.turn == gs.turn
      && r.value.board == Some(LoadState(t.board.value, gs.board).value)
      && r.value.snake1 == RefreshMember(t.snake1, gs.board.snakes)
      && r.value.snake2 == RefreshMember(t.snake2, gs.board.snakes)
      && r.value.history == t.history + [r.value.board.value])
    ensures r.Ok? ==> (r.value.calculatedTurn == t.calculatedTurn
      && r.value.move1 == t.move1 && r.value.move2 == t.move2
      && r.value.ended1 == t.ended1 && r.value.ended2 == t.ended2
      && r.value.snake1.route == t.snake1.route && r.value.snake2.route == t.snake2.route)
  {
    if !Accepts(t, gs) then Ok(t)
    else if t.board.None? then Err(NoBoard)
    else
      match LoadState(t.board.value, gs.board)
      case Err(e) => Err(Load(e))
      case Ok(b) =>
        Ok(t.(turn := gs.turn, board := Some(b),
              snake1 := RefreshMember(t.snake1, gs.board.snakes),
              snake2 := RefreshMember(t.snake2, gs.board.snakes),
              history := t.history + [b]))
  }

  /** Delivering the same snapshot again changes nothing: no second history
      entry, no second load. */
  lemma RedeliveryIgnored(t: Duo, gs: GameState)
    requires Valid(t) && UpdateState(t, gs).Ok?
    ensures UpdateState(UpdateState(t, gs).value, gs) == UpdateState(t, gs)
  {
    var t' := UpdateState(t, gs).value;
    if Accepts(t, gs) {
      assert t'.turn == gs.turn;
      assert !Accepts(t', gs);
    }
  }

  /** Once a snapshot has been taken, any snapshot for the same or an
      earlier turn is ignored: snapshots arriving out of order never roll
      the board back. */
  lemma StaleSnapshotIgnored(t: Duo, gs: GameState, stale: GameState)
    requires Valid(t) && Accepts(t, gs) && t.board.Some? && Loadable(t.board.value, gs.board)
    requires stale.turn <= gs.turn
    ensures UpdateState(UpdateState(t, gs).value, stale) == UpdateState(t, gs)
  {
    var t' := UpdateState(t, gs).value;
    assert t'.turn == gs.turn;
    assert !Accepts(t', stale);
  }

  /** Loading a snapshot never changes whether both members know their
      client id, and a team of freshly made members does not. */
  lemma InitializationKept(t: Duo, gs: GameState, roster: seq<Snake>, a: string, b: string)
    requires Valid(t) && RosterUnique(roster)
    ensures InitializeTeam(t, gs, roster).Ok? ==>
      SnakesInitialized(InitializeTeam(t, gs, roster).value) == SnakesInitialized(t)
    ensures UpdateState(t, gs).Ok? ==> SnakesInitialized(UpdateState(t, gs).value) == SnakesInitialized(t)
    ensures a != b ==> !SnakesInitialized(NewDuo(NewMember(a), NewMember(b)))
  {
  }

  /** After a snapshot is taken, the team accepts exactly the snapshots for
      turns strictly later than that one. */
  lemma AcceptsAfterSnapshot(t: Duo, gs: GameState, next: GameState)
    requires Valid(t) && Accepts(t, gs) && t.board.Some? && Loadable(t.board.value, gs.board)
    ensures Accepts(UpdateState(t, gs).value, next) <==> next.turn > gs.turn
  {
    var t' := UpdateState(t, gs).value;
    assert t'.turn == gs.turn && SnakesInitialized(t');
  }

  // ---------------------------------------------------------------------
  // Choosing moves

  /** The first direction of `dirs` that is also in `safe`. */
  function FirstIn(dirs: seq<Direction>, safe: seq<Direction>): (r: Option<Direction>)
    ensures r.None? <==> forall i :: 0 <= i < |dirs| ==> dirs[i] !in safe
    ensures r.Some? ==> r.value in safe && exists i :: (0 <= i < |dirs| && dirs[i] == r.value
      && forall j :: 0 <= j < i ==> dirs[j] !in safe)
  {
    if |dirs| == 0 then None
    else if dirs[0] in safe then Some(dirs[0])
    else
      var rest := FirstIn(dirs[1..], safe);
      assert forall j :: 0 <= j < |dirs| - 1 ==> dirs[1..][j] == dirs[j + 1];
      rest
  }

  /** One snake's move: "up" when nothing is safe; otherwise the first food
      direction that is safe; otherwise the first safe move. */
  function ChooseMove(safe: seq<Direction>, foodDirs: Option<seq<Direction>>): (r: Direction)
    ensures safe == [] ==> r == Up
    ensures safe != [] ==> r in safe
    ensures safe != [] && foodDirs.Some? && (exists i :: 0 <= i < |foodDirs.value| && foodDirs.value[i] in safe) ==>
      exists i :: 0 <= i < |foodDirs.value| && foodDirs.value[i] == r
        && forall j :: 0 <= j < i ==> foodDirs.value[j] !in safe
    ensures safe != [] && (foodDirs.None? || forall i :: 0 <= i < |foodDirs.value| ==> foodDirs.value[i] !in safe) ==>
      r == safe[0]
  {
    if |safe| == 0 then Up
    else match foodDirs
      case None => safe[0]
      case Some(dirs) =>
        match FirstIn(dirs, safe)
        case None => safe[0]
        case Some(d) => d
  }

  /** A live member's move needs its head and the board: without them
      `get_safe_moves` raises. A dead member needs neither. */
  predicate CanMove(m: Member, board: Option<GeneralBoard>)
  {
    m.snake.isDead || (m.snake.head.Some? && board.Some?)
  }

  /** Every member can be asked for its safe moves. */
  predicate Ready(t: Duo)
  {
    CanMove(t.snake1, t.board) && CanMove(t.snake2, t.board)
  }

  /** One member's pass through the `calculate_move` loop: its safe moves
      (none for a dead snake) and the food directions supplied for it. The
      head is read before the board is used. */
  function MemberMove(m: Member, board: Option<GeneralBoard>, food: Option<seq<Direction>>): (r: Result<Direction, TeamError>)
    requires board.Some? ==> WellFormed(board.value)
    ensures r.Ok? <==> CanMove(m, board)
    ensures r.Err? ==> r.error == (if m.snake.head.None? then MissingHead else NoBoard)
    ensures r.Ok? && m.snake.isDead ==> r.value == Up
    ensures r.Ok? && !m.snake.isDead ==> r.value == ChooseMove(SafeMoves(m.snake, board.value), food)
  {
    if m.snake.isDead then Ok(ChooseMove([], food))
    else if m.snake.head.None? then Err(MissingHead)
    else if board.None? then Err(NoBoard)
    else Ok(ChooseMove(SafeMoves(m.snake, board.value), food))
  }

  /** The state after a call, and what it raised, if anything. */
  datatype Outcome = Outcome(team: Duo, raised: Option<TeamError>)

  /** `calculate_move`: once per turn, clears both moves and then picks each
      member's move in turn. The turn is marked as calculated before any
      move is picked, so a call that raises is not retried in that turn. */
  function CalculateMove(t: Duo, food1: Option<seq<Direction>>, food2: Option<seq<Direction>>): (r: Outcome)
    requires Valid(t)
    ensures r.team.turn == t.turn && r.team.calculatedTurn == t.turn
    ensures r.team.snake1 == t.snake1 && r.team.snake2 == t.snake2
    ensures r.team.board == t.board && r.team.history == t.history
    ensures r.team.ended1 == t.ended1 && r.team.ended2 == t.ended2
    ensures t.calculatedTurn == t.turn ==> r == Outcome(t, None)
    ensures r.raised.Some? <==> t.calculatedTurn != t.turn && !Ready(t)
    ensures r.raised.Some? ==> (r.team.move2.None?
      && (r.team.move1.None? <==> !CanMove(t.snake1, t.board)))
    ensures t.calculatedTurn != t.turn && Ready(t) ==> (r.team.move1.Some? && r.team.move2.Some?
      && r.team.move1 == Some(MemberMove(t.snake1, t.board, food1).value)
      && r.team.move2 == Some(MemberMove(t.snake2, t.board, food2).value))
  {
    if t.calculatedTurn == t.turn then Outcome(t, None)
    else
      var t0 := t.(calculatedTurn := t.turn, move1 := None, move2 := None);
      match MemberMove(t.snake1, t.board, food1)
      case Err(e) => Outcome(t0, Some(e))
      case Ok(d1) =>
        var t1 := t0.(move1 := Some(d1));
        match MemberMove(t.snake2, t.board, food2)
        case Err(e) => Outcome(t1, Some(e))
        case Ok(d2) => Outcome(t1.(move2 := Some(d2)), None)
  }

  /** A member's chosen move is one of its safe moves, or "up" when it has
      none. */
  lemma ChosenMoveIsSafe(t: Duo, food1: Option<seq<Direction>>, food2: Option<seq<Direction>>)
    requires Valid(t) && t.calculatedTurn != t.turn && Ready(t)
    ensures var r := CalculateMove(t, food1, food2).team;
      && (!t.snake1.snake.isDead ==>
            var safe := SafeMoves(t.snake1.snake, t.board.value);
            (safe == [] ==> r.move1 == Some(Up)) && (safe != [] ==> r.move1.value in safe))
      && (!t.snake2.snake.isDead ==>
            var safe := SafeMoves(t.snake2.snake, t.board.value);
            (safe == [] ==> r.move2 == Some(Up)) && (safe != [] ==> r.move2.value in safe))
  {
  }

  /** A second `calculate_move` in the same turn does nothing and raises
      nothing, whatever food directions it is given and whether or not the
      first one raised. */
  lemma CalculateMoveIdempotent(t: Duo, f1: Option<seq<Direction>>, f2: Option<seq<Direction>>,
                                g1: Option<seq<Direction>>, g2: Option<seq<Direction>>)
    requires Valid(t)
    ensures CalculateMove(CalculateMove(t, f1, f2).team, g1, g2) == Outcome(CalculateMove(t, f1, f2).team, None)
  {
  }

  /** `set_snake_move`: stores a move for a member; any other snake is
      ignored. */
  function SetSnakeMove(t: Duo, route: string, mv: Option<Direction>): (r: Duo)
    ensures r.snake1 == t.snake1 && r.snake2 == t.snake2 && r.turn == t.turn
    ensures r.calculatedTurn == t.calculatedTurn && r.board == t.board && r.history == t.history
    ensures r.ended1 == t.ended1 && r.ended2 == t.ended2
    ensures route == t.snake1.route ==> r.move1 == mv && r.move2 == t.move2
    ensures route == t.snake2.route && route != t.snake1.route ==> r.move2 == mv && r.move1 == t.move1
    ensures route != t.snake1.route && route != t.snake2.route ==> r == t
  {
    if route == t.snake1.route then t.(move1 := mv)
    else if route == t.snake2.route then t.(move2 := mv)
    else t
  }

  /** `get_move` (and `get_snake_move`, which has the same body): the
      member's stored move, `None` for a snake outside the team. */
  function GetMove(t: Duo, route: string): (r: Option<Direction>)
    ensures route != t.snake1.route && route != t.snake2.route ==> r.None?
    ensures route == t.snake1.route ==> r == t.move1
    ensures route == t.snake2.route && route != t.snake1.route ==> r == t.move2
  {
    if route == t.snake1.route then t.move1
    else if route == t.snake2.route then t.move2
    else None
  }

  /** Storing a member's move and reading it back gives that move, and
      leaves the other member's move alone. */
  lemma SetThenGetMove(t: Duo, route: string, other: string, mv: Option<Direction>)
    requires Valid(t)
    requires route == t.snake1.route || route == t.snake2.route
    requires other != route
    ensures GetMove(SetSnakeMove(t, route, mv), route) == mv
    ensures GetMove(SetSnakeMove(t, route, mv), other) == GetMove(t, other)
  {
  }

  /** After a `calculate_move` that raised nothing, every member has a
      move to hand out. */
  lemma EveryMemberGetsAMove(t: Duo, f1: Option<seq<Direction>>, f2: Option<seq<Direction>>)
    requires Valid(t) && t.calculatedTurn != t.turn && CalculateMove(t, f1, f2).raised.None?
    ensures GetMove(CalculateMove(t, f1, f2).team, t.snake1.route).Some?
    ensures GetMove(CalculateMove(t, f1, f2).team, t.snake2.route).Some?
  {
  }

  // ---------------------------------------------------------------------
  // The first move of a game

  /** As written, the first move of a game raises: `initialize_team` loads
      the snapshot into the board but not into the members, and the move
      request of the same turn is not a later turn, so `update_state` skips
      it and a live member still has no head when its safe moves are asked
      for. */
  lemma FirstMoveRaises(t: Duo, gs: GameState, roster: seq<Snake>,
                        f1: Option<seq<Direction>>, f2: Option<seq<Direction>>)
    requires Valid(t) && RosterUnique(roster) && SnakesInitialized(t)
    requires !t.snake1.snake.isDead && t.snake1.snake.head.None?
    requires t.calculatedTurn != gs.turn
    requires Loadable(NewBoard(gs.board.width, gs.board.height, roster), gs.board)
    ensures var t' := InitializeTeam(t, gs, roster).value;
      && UpdateState(t', gs) == Ok(t')
      && CalculateMove(t', f1, f2).raised == Some(MissingHead)
  {
    var t' := InitializeTeam(t, gs, roster).value;
    assert !Accepts(t', gs);
    assert !CanMove(t'.snake1, t'.board);
  }

  /** `initialize_team` that also refreshes each member from its snapshot
      entry, as `update_state` does for later turns. */
  function InitializeTeamRefreshed(t: Duo, gs: GameState, roster: seq<Snake>): (r: Result<Duo, TeamError>)
    requires Valid(t) && RosterUnique(roster)
    ensures r.Ok? <==> InitializeTeam(t, gs, roster).Ok?
    ensures r.Ok? ==> Valid(r.value) && r.value.turn == InitializeTeam(t, gs, roster).value.turn
    ensures r.Ok? ==> r.value.board == InitializeTeam(t, gs, roster).value.board
    ensures r.Ok? && SnakesInitialized(t)
      && (exists k :: 0 <= k < |gs.board.snakes| && Some(gs.board.snakes[k].id) == t.snake1.snake.clientId)
      && (exists k :: 0 <= k < |gs.board.snakes| && Some(gs.board.snakes[k].id) == t.snake2.snake.clientId)
      ==> Ready(r.value)
  {
    match InitializeTeam(t, gs, roster)
    case Err(e) => Err(e)
    case Ok(t1) =>
      if !SnakesInitialized(t) then Ok(t1)
      else Ok(t1.(snake1 := RefreshMember(t1.snake1, gs.board.snakes),
                  snake2 := RefreshMember(t1.snake2, gs.board.snakes)))
  }

  /** With the members refreshed at initialization, the first move of a game
      raises nothing once both members appear in the snapshot. */
  lemma RefreshedFirstMoveSucceeds(t: Duo, gs: GameState, roster: seq<Snake>,
                                   f1: Option<seq<Direction>>, f2: Option<seq<Direction>>)
    requires Valid(t) && RosterUnique(roster) && SnakesInitialized(t)
    requires t.calculatedTurn != gs.turn
    requires exists k :: 0 <= k < |gs.board.snakes| && Some(gs.board.snakes[k].id) == t.snake1.snake.clientId
    requires exists k :: 0 <= k < |gs.board.snakes| && Some(gs.board.snakes[k].id) == t.snake2.snake.clientId
    requires Loadable(NewBoard(gs.board.width, gs.board.height, roster), gs.board)
    ensures CalculateMove(InitializeTeamRefreshed(t, gs, roster).value, f1, f2).raised.None?
    ensures var t' := CalculateMove(InitializeTeamRefreshed(t, gs, roster).value, f1, f2).team;
      t'.move1.Some? && t'.move2.Some?
  {
  }

  // ---------------------------------------------------------------------
  // End of game

  /** `end_team`: records that a member finished and reports whether the
      end-of-game hook runs, which it does once both have finished. */
  function EndTeam(t: Duo, route: string): (r: (Duo, bool))
    ensures r.0 == t.(ended1 := r.0.ended1, ended2 := r.0.ended2)
    ensures r.0.ended1 == (t.ended1 || route == t.snake1.route)
    ensures r.0.ended2 == (t.ended2 || route == t.snake2.route)
    ensures r.1 <==> r.0.ended1 && r.0.ended2
  {
    var ended1 := t.ended1 || route == t.snake1.route;
    var ended2 := t.ended2 || route == t.snake2.route;
    (t.(ended1 := ended1, ended2 := ended2), ended1 && ended2)
  }

  /** The hook does not run while a member is still playing, and runs when
      the second member finishes, in either order. */
  lemma EndHandshake(t: Duo, first: string, second: string)
    requires Valid(t) && !t.ended1 && !t.ended2
    requires {first, second} == {t.snake1.route, t.snake2.route}
    ensures !EndTeam(t, first).1
    ensures EndTeam(EndTeam(t, first).0, second).1
  {
    assert first != second;
  }
}
